=== FILE: README.md ===
# SIM card scanner: the AT-command engine

This project models the AT-command engine of a SIM-card bank scanner. The
scanner talks to GSM modems over serial ports. For every port it:

- checks the SIM's PIN state, and unlocks the card with a PIN stored under
  its ICCID;
- sends a fixed batch of AT commands (3GPP TS 27.007 and TS 27.005);
- turns the replies into one record: IMSI, operator, the SMS list, the
  storage count, ICCID, USSD phone number and MSISDN.

It then gathers the records of all ports, in the order the per-port scans
finish, and can clear each port's SMS storage.

The model is functional:

- The serial line is a `Link`. A link maps the commands already sent on a
  port, plus one more command, to the reply (or to no reply). Every
  operation returns the commands it sent alongside its result, so contracts
  can state exactly what went over the wire.
- A reply is either valid UTF-8 text or raw bytes. This mirrors the
  engine's `decode('utf-8')`, which either succeeds or raises.
- Timeouts are integer milliseconds: 1700 for the default and the
  phonebook step, 80 for the batch.
- Records are insertion-ordered dictionaries (`Dicts`), so the key order of
  the written JSON is part of the model.

Modules:

| file | module | models |
|---|---|---|
| `wrappers.dfy` | `Wrappers` | `Option`, for Python's `None` |
| `text.dfy` | `Text` | `str.split`, `in`, `replace`, `strip`/`lstrip`/`rstrip` with Python's whitespace set |
| `numbers.dfy` | `Numbers` | `int()` on text: surrounding whitespace (as `int()` skips it, which is narrower than `strip()`), a sign, digits with single underscores |
| `codec.dfy` | `Codec` | `bytes.fromhex`, `bytes.hex`, UTF-16BE decoding |
| `transport.dfy` | `Transport` | replies, links, the `b'OK' in response` test |
| `decoders.dfy` | `Decoders` | `extract_iccid`, `decode_sms`, `extract_phone_number`, the `+CPMS` count parse, the `+CMGL` list parse, the operator and MSISDN enrichment, the delete confirmation |
| `dicts.dfy` | `Dicts` | the `responses` dictionary |
| `unlock.dfy` | `Unlock` | `check_and_unlock_sim`, plus a scripted SIM card |
| `scanner.dfy` | `Scanner` | `process_single_sim_card` |
| `orchestrator.dfy` | `Orchestrator` | `process_sim_cards` and the command-line entry |

Two behaviours of the code worth knowing:

- **Failed lock-disable.** A PIN that is accepted but whose lock-disable
  (`AT+CLCK="SC",0,…`) is not acknowledged leaves the card unusable: the
  unlock returns `False` (`app/main.py:156-162`, `185`) and the port is
  skipped. `Unlock.PinStage` and `Unlock.LockAfterAcknowledgedPin` give this
  the outcome `LockKept`.
- **NUL before a newline.** `"a\0\n"` decodes to `"a\0"`, because trailing
  NULs are stripped before newlines are removed (`app/main.py:65-66`).
  `Decoders.DecodeSmsKeepsNulBeforeNewline` states this.

## Model

| member | source | states |
|---|---|---|
| Codec.ToHex | app/main.py:302 | `bytes.hex()`: two lower-case hexadecimal digits per byte |
| Codec.FromHexToHex | app/main.py:63 | `bytes.fromhex` reads back exactly the bytes `hex()` wrote |
| Codec.FromHexOddLength | app/main.py:63 | an odd-length text without whitespace is rejected (the `ValueError`) |
| Codec.DecodeUnitsWellFormed | app/main.py:64 | decoding 16-bit code units succeeds exactly when every high surrogate is followed by a low one and no low surrogate stands alone |
| Codec.Utf16BeDecodeSucceeds | app/main.py:64 | `decode('utf-16-be')` succeeds exactly on an even byte count whose code units are well formed |
| Codec.Utf16RoundTrip | app/main.py:64 | decoding the UTF-16BE encoding of any text gives that text back |
| Numbers.ParseIntDigits | app/main.py:53 | `int()` of a non-empty run of ASCII digits is its decimal value |
| Numbers.ParseIntNegative | app/main.py:106-107 | `int()` of a minus sign followed by digits is the negated decimal value |
| Numbers.ParseIntShowInt | app/main.py:106-107 | `int(str(n)) == n` for every integer, negative ones included |
| Numbers.ParseIntNeedsDigit | app/main.py:106-107 | text with no digit at all is rejected by `int()` (the `ValueError`) |
| Numbers.ParseIntOfStripped | app/main.py:106-107 | after `strip()` no whitespace `int()` would skip is left, so `int()` reads the stripped text as it stands |
| Numbers.SeparatorNotSkipped | app/main.py:106-107 | `int()` rejects a number led by U+001C while `int()` of its `strip()` reads it, so the explicit `strip()` is needed |
| Numbers.GroupedDigits | app/main.py:106-107 | digits grouped by single underscores, as `int()` accepts them, are digits once the underscores are removed |
| Text.ContainsIff | app/main.py:126 | the substring test `in` holds exactly when the pattern occurs at some index |
| Text.SplitOnJoin | app/main.py:245 | joining the pieces of `str.split(sep)` with `sep` gives back the original text |
| Text.SplitOnCount | app/main.py:247-248 | `split` yields at least two pieces exactly when the separator occurs |
| Text.SplitOnFirst | app/main.py:268-269 | the first piece of a split is a separator-free prefix, followed by the separator or the end of the text |
| Text.SplitOnJoinInverse | app/main.py:44 | splitting pieces joined by a separator whose first element occurs in none of them gives the pieces back |
| Text.ReplaceByNothing | app/main.py:250-251 | `replace('"', '')` removes every quote and nothing else |
| Text.RStrip | app/main.py:240-241 | `rstrip('\r\n')` removes a suffix and leaves a text that is empty or ends with a kept character |
| Text.Strip | app/main.py:122-123 | `strip` yields a contiguous part of the text that neither starts nor ends with a stripped character |
| Text.StripExact | app/main.py:122-123 | `strip` removes exactly the runs of stripped characters at both ends: everything before and after the kept part is stripped, and the kept part's ends are not |
| Text.StripBetween | app/main.py:238-239 | stripping a text made of stripped characters, a part whose ends are kept, and stripped characters again gives that part |
| Text.ReplaceByEmptyInside | app/main.py:238-239 | `replace(pat, '')` never lengthens the text and keeps only characters of it |
| Text.StripNothing | app/main.py:254 | stripping text that neither starts nor ends with a stripped character changes nothing |
| Decoders.CleanReply | app/main.py:238-241 | the cleaned reply never ends with a line end, is no longer than the reply, and holds only the reply's characters |
| Decoders.CleanOfOkReply | app/main.py:238-241 | a one-line answer in the usual layout `\r\n<line>\r\n\r\nOK\r\n` cleans to exactly that line |
| Decoders.FirstLine | app/main.py:268-269 | the recorded first line is a `\r\n`-free prefix of the reply, followed by `\r\n` or the end |
| Decoders.SwapPairsAt | app/main.py:50-51 | position `i` of the pair-swapped digits holds the digit from the other half of `i`'s pair, or from `i` itself when the last one is unpaired |
| Decoders.SwapPairsInvolution | app/main.py:50-51 | swapping adjacent pairs twice gives the digits back |
| Decoders.SwapPairsAppend | app/main.py:50-51 | pair swapping distributes over concatenation at an even boundary |
| Decoders.KeepDigits | app/main.py:48 | keeping the digits yields only digits, each digit exactly as often as in the input, and leaves an all-digit text unchanged |
| Decoders.KeepDigitsAppend | app/main.py:48 | keeping the digits distributes over concatenation |
| Decoders.IccidDigits | app/main.py:44-48 | digits are selected exactly when the reply has at least three comma fields; they are at most ten ASCII digits |
| Decoders.ExtractIccid | app/main.py:42-58 | `None` exactly when there is no third field or no digit survives; otherwise the pair-swapped digits read as a number below 10^10 |
| Decoders.IccidOfSimRead | app/main.py:42-58 | a `+CRSM` reply whose third field is a quote, the nibble-swapped 20-digit ICCID and any comma-free tail yields ICCID digits 9 to 18 as a number |
| Decoders.IccidWindow | app/main.py:47-48 | after quote stripping, `[8:-2]` and digit filtering, the first ten digits are digits 9 to 18 of the field |
| Decoders.IccidUnswapped | app/main.py:50-51 | the aligned window of the swapped ICCID swaps back to the original digits |
| Decoders.DecodeSms | app/main.py:61-70 | succeeds exactly on hex text that `fromhex` accepts and whose bytes are well-formed UTF-16BE; a success never contains a newline |
| Decoders.DecodeSmsRoundTrip | app/main.py:61-70 | a text with no newline and no trailing NUL, encoded as UTF-16BE hex, decodes back to itself |
| Decoders.DecodeSmsKeepsNulBeforeNewline | app/main.py:65-66 | a NUL just before a final newline survives decoding, since the NUL strip comes before the newline removal |
| Decoders.ParseSegment | app/main.py:247-262 | a `+CMGL:` segment gives an entry exactly when it has a line break; sender and timestamp are free of quotes |
| Decoders.ParseSegmentsKeepsAll | app/main.py:246-264 | no segment is dropped exactly when every segment has a body line |
| Decoders.ParseSmsList | app/main.py:244-265 | at most one entry per `+CMGL:` marker |
| Decoders.ParseListedMessage | app/main.py:247-262 | a listed message comes out with the sender (field 2) and timestamp (field 4) unquoted and its UCS2 body decoded |
| Decoders.UndecodableBodyKept | app/main.py:254-257 | a body that `decode_sms` rejects is kept as the message, so no entry is lost |
| Decoders.MissingFieldsBlank | app/main.py:249-253 | a header without a third field gives an empty sender, and one without a fifth field an empty timestamp |
| Decoders.ListingLines | app/main.py:247 | a header, `\r\n` and a hex body split into exactly that header and body |
| Decoders.UnquoteQuoted | app/main.py:250-253 | removing quotes from a quoted quote-free field gives the field |
| Decoders.ExtractPhoneNumber | app/main.py:30-39 | a number is found exactly when the reply is UTF-8 text that contains `CUSD:` and a quote, and it never contains a quote |
| Decoders.PhoneNumberOfUssd | app/main.py:30-39 | a `CUSD:` reply whose first quoted text is `t` yields `t` |
| Decoders.OperatorName | app/main.py:290-293 | an operator is read exactly when there are at least three comma fields; it has no quotes |
| Decoders.OperatorOfCops | app/main.py:290-293 | a `+COPS` reply `mode,format,"name",…` yields `name` |
| Decoders.Msisdn | app/main.py:295-299 | an MSISDN is read exactly when the second quote-delimited part starts `MSISDN:`; it holds neither `:` nor a quote |
| Decoders.MsisdnOfQuoted | app/main.py:295-299 | a reply whose first quoted part is `MSISDN: n`, with `n` free of colons and quotes and not padded by whitespace, yields `n` |
| Decoders.LabelledFields | app/main.py:296-298 | a part starting `MSISDN:` has a field after the colon, free of colons and quotes |
| Decoders.ParseCount | app/main.py:98-111 | a count is read only from present UTF-8 text, and then `used` and `total` are the `int()` values of the stripped text after the first colon of field 0 and of the stripped field 1 |
| Decoders.CountOfStorageReport | app/main.py:98-111 | `+CPMS: u,t,…` yields `(u, t)` |
| Decoders.CountOfFields | app/main.py:104-111 | whenever the stripped text after field 0's first colon and the stripped field 1 both read as integers, the count is read with those values |
| Decoders.DeleteConfirmedIff | app/main.py:87-95 | the delete is reported as done exactly when `OK` occurs in the reply's bytes |
| Dicts.Get | app/main.py:313 | a key has a value exactly when it is among the keys |
| Dicts.Put | app/main.py:225-226 | assignment keeps the key order, appending a new key at the end, and the key then holds the assigned value |
| Dicts.PutOther | app/main.py:265 | assignment leaves every other key's value alone |
| Dicts.PutKeys | app/main.py:265 | the keys after assignment are those before, in the same order, plus the assigned one |
| Dicts.PutUnique | app/main.py:265 | assignment keeps the keys unique |
| Dicts.Delete | app/main.py:313-318 | `del` removes exactly the given key from the key sequence |
| Dicts.DeleteOther | app/main.py:313-318 | `del` leaves every other key's value alone |
| Dicts.DeleteUnique | app/main.py:313-318 | `del` keeps the keys unique |
| Unlock.CheckAndUnlock | app/main.py:114-185 | the status query always goes first; at most four commands; no status exactly when the reply is absent or empty; `Ready` exactly when the status says READY and not SIM PIN; usable only when ready or after all four commands |
| Unlock.StatusOnlyWithoutPinRequest | app/main.py:173-177 | without a PIN request only the status query is sent, and the card is usable exactly when the status says READY |
| Unlock.ReadsIccidOnPinRequest | app/main.py:126-128 | a second command is sent exactly when the status asks for the SIM PIN, and it is the ICCID read |
| Unlock.SendsOnlyStoredPin | app/main.py:130-145 | a PIN is sent exactly when the ICCID extracts to a non-zero key with stored credentials; the PIN sent is the stored one, and the lock-disable uses it too |
| Unlock.LockAfterAcknowledgedPin | app/main.py:147-159 | the lock-disable is sent exactly when the PIN entry's reply contains `OK`; the card is unlocked exactly when that reply's answer contains `OK` as well |
| Unlock.PinStageReplies | app/main.py:144-159 | the PIN stage's decisions read the replies at the third and fourth position of the whole trace |
| Unlock.IccidStage | app/main.py:127-171 | after a PIN request: the ICCID read goes first, at most three commands, never `Ready`, and `Unlocked` only after the lock-disable |
| Unlock.IccidStageSteps | app/main.py:130-145 | the PIN stage is entered exactly when the ICCID reply extracts to a stored non-zero key, and runs with that key's PIN |
| Unlock.PinStage | app/main.py:142-164 | the PIN entry goes first; the lock-disable follows exactly when its reply contains `OK`; `Unlocked` exactly when both replies contain `OK` |
| Unlock.PinRequestedRun | app/main.py:126-128 | after a PIN request the run is the status query followed by the ICCID stage |
| Unlock.RunWithStoredPin | app/main.py:141-164 | with a stored PIN: a rejected PIN stops after three commands; an acknowledged PIN and lock-disable unlock after four |
| Unlock.ReadyCardNeedsNoPin | app/main.py:173-174 | a card answering `+CPIN: READY` is ready after the status query alone |
| Unlock.CardReadsIccid | app/main.py:127-133 | the scripted card's ICCID read yields its ICCID key |
| Unlock.CrsmReplyIccid | app/main.py:131-133 | a `+CRSM: 144,0,"…"` reply extracts to ICCID digits 9 to 18 |
| Unlock.UnlocksStoredCard | app/main.py:114-159 | a PIN-locked card whose PIN is stored under its ICCID is unlocked with exactly the four commands |
| Unlock.StopsAtWrongPin | app/main.py:141-164 | a card whose stored PIN is wrong stops after the PIN entry, rejected |
| Scanner.TimeoutFor | app/main.py:190-194 | only the phonebook step uses the 1.7 s timeout; every other step uses the 80 ms batch timeout |
| Scanner.PrimaryValue | app/main.py:235-310 | the step's own value is `null` exactly for an absent or empty reply, an SMS list exactly for a UTF-8 reply to "Get SMS", hexadecimal digits two per byte for a non-UTF-8 reply, and otherwise the first line of the cleaned reply: a `\r\n`-free prefix followed by `\r\n` or the end |
| Scanner.PrimaryOfOkReply | app/main.py:235-269 | a one-line answer in the usual layout is recorded as that line for every step but "Get SMS" |
| Scanner.ExtraEntry | app/main.py:271-299 | an extra entry comes only from UTF-8 text; `ICCID` only from "Get ICCID", the USSD number only from "Send USSD", `MSISDN` only from the phonebook step; any other extra entry replaces the step's own value |
| Scanner.EntryOf | app/main.py:233-311 | each step's entry carries its description and at most one extra key of the allowed kind |
| Scanner.Record | app/main.py:265-299 | recording a step keeps the earlier keys in order, adds the step's key, and adds no key other than an extra one |
| Scanner.RecordOther | app/main.py:265-299 | recording a step leaves the value of every key that is neither the step's nor an extra key alone |
| Scanner.RecordUnique | app/main.py:265-299 | recording a step keeps the keys unique |
| Scanner.RecordOwnValue | app/main.py:265-293 | after recording, the step's key holds the operator value if one was extracted, otherwise the first line or SMS list |
| Scanner.UndecodableKeptAsHex | app/main.py:301-303 | a reply that is not UTF-8 is recorded as hex text that reads back as the reply's bytes |
| Scanner.SilenceRecordedAsNull | app/main.py:309-310 | an absent or empty reply records `null` under the step's key |
| Scanner.RunBatch | app/main.py:228-311 | the batch sends exactly the plan's commands, with their timeouts, in order, and keeps the earlier keys first and unique |
| Scanner.RecordAll | app/main.py:228-311 | recording the steps keeps the earlier keys in order and keeps them unique |
| Scanner.RecordKeys | app/main.py:228-311 | every step's key is present afterwards, and every key is an earlier one, an extra one or a step's |
| Scanner.RecordFrame | app/main.py:228-311 | a key that is neither a step's nor an extra key keeps its value |
| Scanner.RecordValue | app/main.py:228-311 | a step whose description occurs once holds its own entry's value at the end |
| Scanner.HideHelpers | app/main.py:313-318 | after the deletes every key was there before and none is a helper key |
| Scanner.HideOther | app/main.py:313-318 | the deletes leave every non-helper key's value alone |
| Scanner.HideUnique | app/main.py:313-318 | the deletes keep the keys unique |
| Scanner.ScanPort | app/main.py:188-320 | a record carries the port and timestamp, has unique keys and no helper key; a fast scan always gives a record |
| Scanner.FullScan | app/main.py:201-320 | a record exactly when the unlock leaves the card usable; then the `+CPMS` query and the eight plan commands follow the unlock commands, and the record is the full-plan record |
| Scanner.FastScan | app/main.py:217-220 | no unlock and no count: the `AT+CMGL="ALL"` listing is the only command, and a record always results |
| Scanner.FastScanRecord | app/main.py:217-269 | the fast record holds exactly one key, "Get SMS", with the listing's value |
| Scanner.FastPlanExchanges | app/main.py:218-233 | the fast plan is the listing with the 80 ms batch timeout |
| Scanner.FullScanKeyPresent | app/main.py:206-318 | every full-plan description that is not a helper key is in the record |
| Scanner.FullScanKeysOnly | app/main.py:206-318 | the full record has no key beyond "SMS Count", the extra keys and the five visible descriptions |
| Scanner.FullScanCount | app/main.py:222-226 | "SMS Count" is present exactly when both counts parse, and then holds them |
| Scanner.FullScanValue | app/main.py:228-311 | each visible step's key holds the value of its own reply in the batch |
| Scanner.RecordExtraKey | app/main.py:271-299 | recording a step sets a key other than its own to the step's extra value when the extra entry is under that key, and leaves it alone otherwise |
| Scanner.RecordUntouched | app/main.py:228-311 | a key that no step has as description or extra key keeps its value |
| Scanner.RecordExtra | app/main.py:228-311 | a key that is no step's description and the extra key of at most one step ends up holding that step's extra value, or its earlier value when that step yields none |
| Scanner.FullScanExtra | app/main.py:271-318 | in a full scan `ICCID`, `Phone Number (USSD)` and `MSISDN` each hold exactly what their own step's reply yields ("Get ICCID", "Send USSD", "Set Phonebook Storage to MSISDN"), and are absent when that reply yields nothing |
| Scanner.PlanKeepsCount | app/main.py:222-318 | the batch and the deletes leave "SMS Count" as the count parse set it |
| Orchestrator.Collect | app/main.py:337-340 | the collected records are exactly the present results of the indexed tasks, and there are no more of them than indices |
| Orchestrator.CollectCovers | app/main.py:334-340 | collecting in any completion order misses no present result |
| Orchestrator.CollectAppend | app/main.py:337-340 | collecting over two runs of completions is collecting over each in turn |
| Orchestrator.CollectPermutation | app/main.py:334-340 | the collected records as a multiset do not depend on the completion order |
| Orchestrator.CollectInOrderCount | app/main.py:337-340 | one record is collected per present result |
| Orchestrator.ActivePorts | app/main.py:325-332 | a non-empty port is scanned alone, otherwise every detected port |
| Orchestrator.Scans | app/main.py:334-336 | one scan per active port, the `i`-th on the `i`-th port with the `i`-th timestamp |
| Orchestrator.Dispatch | app/main.py:334-344 | the collected records are exactly the scans' records; each port's trace is its scan followed by the delete when asked; a delete's result is its reply's confirmation |
| Orchestrator.DispatchShape | app/main.py:334-344 | each port's trace starts with what its scan sent, and a value is among the records exactly when some scan produced it |
| Orchestrator.ProcessSimCards | app/main.py:323-344 | one trace per active port, each starting with that port's scan (the full scan when no port is named); the records are exactly the records those scans produced |
| Orchestrator.OrderFree | app/main.py:334-340 | whatever the completion order, the records are those collected in submission order, reordered |
| Orchestrator.RecordCount | app/main.py:334-340 | there are as many records as scans that produced one, whatever the order |
| Orchestrator.FullScanRecordCount | app/main.py:323-340 | a full scan yields one record per detected port whose card the unlock leaves usable |
| Orchestrator.FoundIffUsable | app/main.py:201-204 | a port's full scan yields a record exactly when its card is usable |
| Orchestrator.TargetedRun | app/main.py:329-344 | naming a port yields exactly its listing record, and its trace is the listing followed by the delete when asked |
| Orchestrator.SingleDispatch | app/main.py:334-344 | with a single task the run is that task's record and trace |
| Orchestrator.Main | app/main.py:362-367 | `--delete-sms` is honoured only with a non-empty `--port`; without one every detected port is scanned fully and nothing follows the scans |

## Left out

- Serial I/O (`send_at_command`, `app/main.py:15-23`): opening the port, writing and `readall` are replaced by the `Link` parameter. The baud rate is not modelled. An exception from the port is the same as no reply.
- Port discovery (`detect_ports`): the detected ports are a parameter. Duplicate port names are not treated specially.
- The SQLite credentials store (`load_iccid_pin_data` and the module-level connection): the ICCID-to-PIN map is a parameter. A failing query, which gives an empty map, is covered by passing an empty map.
- The thread pool: the order in which scans finish is a parameter, constrained to be a permutation of the submitted scans. The scans themselves are independent, because each port has its own `Link`.
- `datetime.now().isoformat()`: the timestamp of the `i`-th task is `stamps(i)`, a parameter.
- The JSON file, `print` logging, and `argparse`: output and logging have no effect on the results. The parsed arguments are the parameters of `Orchestrator.Main`.
- The "Get Phone Number" branch (`app/main.py:281-288`): that description is in neither plan, so the branch cannot run.
- Transport.AsciiPart: `decode('utf-8', errors='ignore')` of bytes that are not valid UTF-8 is modelled as keeping their ASCII bytes only. Valid multi-byte sequences inside such bytes are dropped as well. This only matters for the status and ICCID replies, whose markers are ASCII.
- `str.isdigit` and `int()` accept only ASCII digits here, not the other Unicode decimal digits.
- Scanner.HideHelpers: states only that the deletes keep no helper key and add none. That every other key survives is stated by `Scanner.HideOther` through its value.
- `app/app.py` and `upload_csv_to_db.py`: a web front end and CSV import, with no engine logic. They are not part of this model.

=== FILE: codec.dfy ===
/** Byte-level encodings the engine meets: hexadecimal text (Python's
    `bytes.hex()` and `bytes.fromhex()`) and UTF-16 big-endian, the encoding
    of SMS bodies read in UCS2 mode (Python's `'utf-16-be'` codec). */
module Codec {
  import opened Wrappers

  type byte = b: int | 0 <= b < 256

  /** One UTF-16 code unit. */
  type unit16 = u: int | 0 <= u < 0x1_0000

  // ---------------------------------------------------------------------
  // Hexadecimal text

  predicate IsHexDigit(c: char) {
    ('0' <= c <= '9') || ('a' <= c <= 'f') || ('A' <= c <= 'F')
  }

  function HexValue(c: char): (v: nat)
    requires IsHexDigit(c)
    ensures v < 16
  {
    if '0' <= c <= '9' then c as int - '0' as int
    else if 'a' <= c <= 'f' then c as int - 'a' as int + 10
    else c as int - 'A' as int + 10
  }

  /** The lower-case hexadecimal digit `bytes.hex()` writes for `v`. */
  function HexDigit(v: nat): (c: char)
    requires v < 16
    ensures IsHexDigit(c) && HexValue(c) == v
  {
    if v < 10 then ('0' as int + v) as char else ('a' as int + v - 10) as char
  }

  /** Python's `bytes.hex()`: two lower-case digits per byte, high nibble
      first. */
  function ToHex(b: seq<byte>): (r: string)
    ensures |r| == 2 * |b|
    ensures forall i :: 0 <= i < |r| ==> IsHexDigit(r[i])
    ensures forall i :: 0 <= i < |r| ==> !('A' <= r[i] <= 'F')
  {
    if |b| == 0 then []
    else [HexDigit(b[0] / 16), HexDigit(b[0] % 16)] + ToHex(b[1..])
  }

  /** The ASCII whitespace `bytes.fromhex()` skips between byte pairs. */
  predicate IsAsciiSpace(c: char) {
    c == ' ' || ('\t' <= c <= '\r')
  }

  /** Python's `bytes.fromhex(s)`: pairs of hexadecimal digits, optionally
      separated by ASCII whitespace; whitespace inside a pair, an odd digit
      out or any other character is a `ValueError`, modelled as `None`. */
  function FromHex(s: string): Option<seq<byte>>
    decreases |s|
  {
    if |s| == 0 then Some([])
    else if IsAsciiSpace(s[0]) then FromHex(s[1..])
    else if |s| >= 2 && IsHexDigit(s[0]) && IsHexDigit(s[1]) then
      match FromHex(s[2..])
      case Some(rest) => Some([16 * HexValue(s[0]) + HexValue(s[1])] + rest)
      case None => None
    else None
  }

  /** `bytes.fromhex(b.hex()) == b`. */
  lemma {:induction false} FromHexToHex(b: seq<byte>)
    ensures FromHex(ToHex(b)) == Some(b)
  {
    if |b| > 0 {
      var s := ToHex(b);
      assert s[2..] == ToHex(b[1..]);
      FromHexToHex(b[1..]);
      assert 16 * HexValue(s[0]) + HexValue(s[1]) == b[0];
      assert b == [b[0]] + b[1..];
    }
  }

  /** Without whitespace, hexadecimal text of odd length never decodes. */
  lemma {:induction false} FromHexOddLength(s: string)
    requires forall i :: 0 <= i < |s| ==> !IsAsciiSpace(s[i])
    requires |s| % 2 == 1
    ensures FromHex(s) == None
    decreases |s|
  {
    assert !IsAsciiSpace(s[0]);
    if |s| >= 3 {
      FromHexOddLength(s[2..]);
    }
  }

  // ---------------------------------------------------------------------
  // UTF-16 big-endian

  predicate IsHighSurrogate(u: int) {
    0xD800 <= u <= 0xDBFF
  }

  predicate IsLowSurrogate(u: int) {
    0xDC00 <= u <= 0xDFFF
  }

  /** The big-endian 16-bit code units of an even number of bytes. */
  function CodeUnits(b: seq<byte>): (u: seq<unit16>)
    requires |b| % 2 == 0
    ensures |u| == |b| / 2
  {
    if |b| == 0 then [] else [(b[0] as int) * 256 + b[1] as int] + CodeUnits(b[2..])
  }

  /** The two bytes of each code unit, high byte first. */
  function UnitBytes(u: seq<unit16>): (b: seq<byte>)
    ensures |b| == 2 * |u|
  {
    if |u| == 0 then [] else [u[0] / 256, u[0] % 256] + UnitBytes(u[1..])
  }

  /** The code unit at `i` is properly paired: a high surrogate is followed
      by a low one and a low surrogate follows a high one. */
  predicate PairedAt(u: seq<unit16>, i: int)
    requires 0 <= i < |u|
  {
    && (IsHighSurrogate(u[i]) ==> i + 1 < |u| && IsLowSurrogate(u[i + 1]))
    && (IsLowSurrogate(u[i]) ==> i > 0 && IsHighSurrogate(u[i - 1]))
  }

  /** Well-formed UTF-16: no unpaired surrogate anywhere. */
  predicate WellFormedUtf16(u: seq<unit16>) {
    forall i :: 0 <= i < |u| ==> PairedAt(u, i)
  }

  /** The supplementary character a surrogate pair stands for. */
  function Supplementary(hi: unit16, lo: unit16): (c: char)
    requires IsHighSurrogate(hi) && IsLowSurrogate(lo)
    ensures 0x1_0000 <= c as int <= 0x10_FFFF
  {
    (0x1_0000 + (hi - 0xD800) * 0x400 + (lo - 0xDC00)) as char
  }

  function Prepend(c: char, rest: Option<string>): Option<string> {
    match rest
    case Some(s) => Some([c] + s)
    case None => None
  }

  /** Decoding code units strictly, as Python's codec does: any unpaired
      surrogate is an error. */
  function DecodeUnits(u: seq<unit16>): Option<string>
    decreases |u|
  {
    if |u| == 0 then Some([])
    else if IsHighSurrogate(u[0]) then
      if |u| >= 2 && IsLowSurrogate(u[1]) then Prepend(Supplementary(u[0], u[1]), DecodeUnits(u[2..]))
      else None
    else if IsLowSurrogate(u[0]) then None
    else Prepend(u[0] as char, DecodeUnits(u[1..]))
  }

  /** Python's `b.decode('utf-16-be')`; an odd byte count or an unpaired
      surrogate raises `UnicodeDecodeError`, modelled as `None`. */
  function Utf16BeDecode(b: seq<byte>): Option<string> {
    if |b| % 2 == 1 then None else DecodeUnits(CodeUnits(b))
  }

  function EncodeChar(c: char): (u: seq<unit16>)
    ensures 1 <= |u| <= 2
  {
    if c as int < 0x1_0000 then [c as int]
    else
      var v := c as int - 0x1_0000;
      [0xD800 + v / 0x400, 0xDC00 + v % 0x400]
  }

  function EncodeUnits(s: string): seq<unit16> {
    if |s| == 0 then [] else EncodeChar(s[0]) + EncodeUnits(s[1..])
  }

  /** Python's `s.encode('utf-16-be')`. */
  function Utf16BeEncode(s: string): seq<byte> {
    UnitBytes(EncodeUnits(s))
  }

  lemma {:induction false} CodeUnitsOfUnitBytes(u: seq<unit16>)
    ensures CodeUnits(UnitBytes(u)) == u
  {
    if |u| > 0 {
      var b := UnitBytes(u);
      assert b[2..] == UnitBytes(u[1..]);
      CodeUnitsOfUnitBytes(u[1..]);
      assert u == [u[0]] + u[1..];
    }
  }

  lemma {:induction false} DecodeEncodeUnits(s: string)
    ensures DecodeUnits(EncodeUnits(s)) == Some(s)
    decreases |s|
  {
    if |s| > 0 {
      var c := s[0];
      var u := EncodeUnits(s);
      var e := EncodeChar(c);
      DecodeEncodeUnits(s[1..]);
      assert s == [c] + s[1..];
      if c as int < 0x1_0000 {
        assert u[1..] == EncodeUnits(s[1..]);
      } else {
        var v := c as int - 0x1_0000;
        assert v == (v / 0x400) * 0x400 + v % 0x400;
        assert u[2..] == EncodeUnits(s[1..]);
        assert Supplementary(u[0], u[1]) == c;
      }
    }
  }

  /** Decoding what was encoded gives the text back. */
  lemma Utf16RoundTrip(s: string)
    ensures Utf16BeDecode(Utf16BeEncode(s)) == Some(s)
  {
    CodeUnitsOfUnitBytes(EncodeUnits(s));
    DecodeEncodeUnits(s);
  }

  lemma PairedShift(u: seq<unit16>, k: nat, i: int)
    requires 0 < k <= |u| && 0 <= i < |u| - k
    requires i == 0 ==> !IsHighSurrogate(u[k - 1])
    ensures PairedAt(u, i + k) <==> PairedAt(u[k..], i)
  {
  }

  /** Strict decoding succeeds exactly on well-formed UTF-16. */
  lemma {:induction false} DecodeUnitsWellFormed(u: seq<unit16>)
    ensures DecodeUnits(u).Some? <==> WellFormedUtf16(u)
    decreases |u|
  {
    if |u| == 0 {
    } else if IsHighSurrogate(u[0]) {
      if |u| >= 2 && IsLowSurrogate(u[1]) {
        DecodeUnitsWellFormed(u[2..]);
        forall i | 0 <= i < |u| - 2
          ensures PairedAt(u, i + 2) <==> PairedAt(u[2..], i)
        {
          PairedShift(u, 2, i);
        }
        assert PairedAt(u, 0) && PairedAt(u, 1);
        if WellFormedUtf16(u[2..]) {
          forall i | 0 <= i < |u|
            ensures PairedAt(u, i)
          {
            if i >= 2 {
              assert PairedAt(u[2..], i - 2);
            }
          }
        }
      } else {
        assert !PairedAt(u, 0);
      }
    } else if IsLowSurrogate(u[0]) {
      assert !PairedAt(u, 0);
    } else {
      DecodeUnitsWellFormed(u[1..]);
      forall i | 0 <= i < |u| - 1
        ensures PairedAt(u, i + 1) <==> PairedAt(u[1..], i)
      {
        PairedShift(u, 1, i);
      }
      assert PairedAt(u, 0);
      if WellFormedUtf16(u[1..]) {
        forall i | 0 <= i < |u|
          ensures PairedAt(u, i)
        {
          if i >= 1 {
            assert PairedAt(u[1..], i - 1);
          }
        }
      }
    }
  }

  /** `utf-16-be` decoding succeeds exactly on an even number of bytes that
      form well-formed UTF-16. */
  lemma Utf16BeDecodeSucceeds(b: seq<byte>)
    ensures Utf16BeDecode(b).Some? <==> |b| % 2 == 0 && WellFormedUtf16(CodeUnits(b))
  {
    if |b| % 2 == 0 {
      DecodeUnitsWellFormed(CodeUnits(b));
    }
  }
}

=== FILE: decoders.dfy ===
/** The response decoders of the AT-command engine: pure functions from the
    text of a modem reply to the values the scan records (app/main.py). */
module Decoders {
  import opened Wrappers
  import opened Text
  import opened Numbers
  import opened Codec
  import opened Transport

  // ---------------------------------------------------------------------
  // Shared helpers

  function Quote(s: string): string {
    "\"" + s + "\""
  }

  /** `s.replace('"', '')`: every double quote removed. */
  function Unquote(s: string): (r: string)
    ensures r == Without(s, '"')
  {
    ReplaceByNothing(s, '"');
    Replace(s, "\"", "")
  }

  predicate IsQuote(c: char) {
    c == '"'
  }

  predicate IsLineEnd(c: char) {
    c == '\r' || c == '\n'
  }

  /** What the scanner keeps of a decoded reply:
      `text.strip().replace('\r\nOK', '').rstrip('\r\n')`. */
  function CleanReply(text: string): (r: string)
    ensures |r| == 0 || !IsLineEnd(r[|r| - 1])
    ensures |r| <= |text| && forall c :: c in r ==> c in text
  {
    var stripped := Strip(text, IsPySpace);
    StripInside(text, IsPySpace);
    var replaced := Replace(stripped, "\r\nOK", "");
    ReplaceByEmptyInside(stripped, "\r\nOK");
    var r := RStrip(replaced, IsLineEnd);
    SliceInside(replaced, 0, |r|);
    r
  }

  /** A one-line answer in the usual layout, `\r\n<body>\r\n\r\nOK\r\n`,
      cleans to that line. */
  lemma CleanOfOkReply(body: string)
    requires |body| > 0 && '\r' !in body
    requires !IsPySpace(body[0]) && !IsPySpace(body[|body| - 1])
    ensures CleanReply("\r\n" + body + "\r\n\r\nOK\r\n") == body
  {
    var text := "\r\n" + body + "\r\n\r\nOK\r\n";
    OkReplyStrip(body);
    OkReplyReplace(body);
    assert !IsLineEnd(body[|body| - 1]);
    RStripAfter(body, "\r\n", IsLineEnd);
  }

  lemma OkReplyStrip(body: string)
    requires |body| > 0 && !IsPySpace(body[0]) && !IsPySpace(body[|body| - 1])
    ensures Strip("\r\n" + body + "\r\n\r\nOK\r\n", IsPySpace) == body + "\r\n\r\nOK"
  {
    var mid := body + "\r\n\r\nOK";
    var text := "\r\n" + body + "\r\n\r\nOK\r\n";
    assert text == "\r\n" + mid + "\r\n";
    assert mid[0] == body[0] && mid[|mid| - 1] == 'K';
    StripBetween("\r\n", mid, "\r\n", IsPySpace);
    assert Strip(text, IsPySpace) == mid;
  }

  lemma OkReplyReplace(body: string)
    requires '\r' !in body
    ensures Replace(body + "\r\n\r\nOK", "\r\nOK", "") == body + "\r\n"
  {
    OkTrailerSplit();
    SplitOnPrefixFree(body, "\r\n\r\nOK", "\r\nOK");
    var parts := [body + "\r\n", ""];
    assert SplitOn(body + "\r\n\r\nOK", "\r\nOK") == parts;
    assert parts[1..] == [""] && Join(parts[1..], "") == "";
    assert Join(parts, "") == parts[0] + "" + "";
  }

  /** The `OK` trailer splits at its second line break. */
  lemma OkTrailerSplit()
    ensures SplitOn("\r\n\r\nOK", "\r\nOK") == ["\r\n", ""]
  {
    var sep := "\r\nOK";
    var s := "\r\n\r\nOK";
    assert SplitOn("", sep) == [""];
    assert StartsWith(sep, sep) && sep[4..] == "";
    assert SplitOn(sep, sep) == ["", ""];
    var t := "\n\r\nOK";
    assert !StartsWith(t, sep) by { assert t[..4][0] == '\n'; }
    assert t[1..] == sep && t[0] == '\n';
    assert SplitOn(t, sep) == [['\n'] + ""] + [""];
    assert !StartsWith(s, sep) by { assert s[..4][2] == '\r'; }
    assert s[1..] == t && s[0] == '\r';
    var rest := SplitOn(s[1..], sep);
    assert rest[0] == "\n" && rest[1..] == [""];
    assert SplitOn(s, sep) == [['\r'] + rest[0]] + rest[1..];
    assert ['\r'] + "\n" == "\r\n";
  }

  /** `text.split('\r\n')[0]`: the text up to the first line break. */
  function FirstLine(text: string): (r: string)
    ensures StartsWith(text, r) && !Contains(r, CrLf)
    ensures r == text || StartsWith(text[|r|..], CrLf)
  {
    SplitOnFirst(text, CrLf);
    SplitOn(text, CrLf)[0]
  }

  /** A one-character separator absent from every part and from the
      separator is absent from the joined text. */
  lemma {:induction false} NotInJoin(parts: seq<string>, sep: string, c: char)
    requires c !in sep
    requires forall i :: 0 <= i < |parts| ==> c !in parts[i]
    ensures c !in Join(parts, sep)
    decreases |parts|
  {
    if |parts| > 1 {
      NotInJoin(parts[1..], sep, c);
    }
  }

  // ---------------------------------------------------------------------
  // ICCID (the EF_ICCID read, digits stored nibble-swapped)

  /** `s[i:i+2][::-1]` joined over all even `i`: each adjacent pair of
      characters swapped, a last unpaired character left in place. */
  function SwapPairs(s: string): (r: string)
    ensures |r| == |s|
    decreases |s|
  {
    if |s| < 2 then s else [s[1], s[0]] + SwapPairs(s[2..])
  }

  /** Each character of the swapped text comes from its pair mate. */
  lemma {:induction false} SwapPairsAt(s: string, i: nat)
    requires i < |s|
    ensures SwapPairs(s)[i] == s[PairMate(i, |s|)]
    decreases |s|
  {
    if |s| >= 2 {
      var r := SwapPairs(s);
      if i >= 2 {
        SwapPairsAt(s[2..], i - 2);
        assert r[i] == SwapPairs(s[2..])[i - 2];
        assert PairMate(i, |s|) == PairMate(i - 2, |s| - 2) + 2;
      }
    }
  }

  /** The position a character at `i` trades places with. */
  function PairMate(i: nat, n: nat): (j: nat)
    requires i < n
    ensures j < n
  {
    if i % 2 == 1 then i - 1 else if i + 1 < n then i + 1 else i
  }

  /** Swapping pairs twice gives the digits back. */
  lemma {:induction false} SwapPairsInvolution(s: string)
    ensures SwapPairs(SwapPairs(s)) == s
    decreases |s|
  {
    if |s| >= 2 {
      var r := SwapPairs(s);
      var t := SwapPairs(s[2..]);
      assert r == [s[1], s[0]] + t;
      assert r[2..] == t;
      SwapPairsInvolution(s[2..]);
      assert SwapPairs(r) == [s[0], s[1]] + s[2..];
      HeadTwo(s);
    }
  }

  lemma HeadTwo<T>(s: seq<T>)
    requires |s| >= 2
    ensures s == [s[0], s[1]] + s[2..]
  {
  }

  /** Pair swapping works pair by pair, so it splits at any even position. */
  lemma {:induction false} SwapPairsAppend(a: string, b: string)
    requires |a| % 2 == 0
    ensures SwapPairs(a + b) == SwapPairs(a) + SwapPairs(b)
    decreases |a|
  {
    if |a| == 0 {
      assert a + b == b;
    } else {
      assert (a + b)[2..] == a[2..] + b;
      SwapPairsAppend(a[2..], b);
    }
  }

  /** The characters of `s` that are ASCII digits (`c.isdigit()`). */
  function KeepDigits(s: string): (r: string)
    ensures AllDigits(r) && |r| <= |s|
    ensures AllDigits(s) ==> r == s
    ensures forall c :: IsDigit(c) ==> multiset(r)[c] == multiset(s)[c]
    decreases |s|
  {
    if |s| == 0 then []
    else
      var rest := KeepDigits(s[1..]);
      assert s == [s[0]] + s[1..];
      assert multiset(s) == multiset{s[0]} + multiset(s[1..]);
      if IsDigit(s[0]) then
        assert multiset([s[0]] + rest) == multiset{s[0]} + multiset(rest);
        [s[0]] + rest
      else rest
  }

  /** The Python slice `s[8:-2]`: the first eight and the last two characters
      dropped, empty when fewer than eleven are there. */
  function DropEnds(s: string): string {
    if |s| > 10 then s[8..|s| - 2] else []
  }

  /** The ICCID digits `extract_iccid` works on: the third comma-separated
      field, quotes stripped from its ends, `[8:-2]`, its digits, at most ten;
      `None` when there is no third field. */
  function IccidDigits(response: string): (r: Option<string>)
    ensures r.Some? <==> |Split(response, ',')| >= 3
    ensures r.Some? ==> AllDigits(r.value) && |r.value| <= 10
  {
    var parts := Split(response, ',');
    if |parts| < 3 then None
    else
      var digits := KeepDigits(DropEnds(Strip(parts[2], IsQuote)));
      Some(if |digits| <= 10 then digits else digits[..10])
  }

  /** `extract_iccid`: the selected digits pair-swapped and read as a decimal
      number; `None` when there is no third field or no digit in it. */
  function ExtractIccid(response: string): (r: Option<int>)
    ensures r.None? <==> IccidDigits(response).None? || IccidDigits(response).value == []
    ensures r.Some? ==>
              && AllDigits(SwapPairs(IccidDigits(response).value))
              && r.value == DigitsValue(SwapPairs(IccidDigits(response).value))
    ensures r.Some? ==> 0 <= r.value < Pow10(10)
  {
    match IccidDigits(response)
    case None => None
    case Some(digits) =>
      var swapped := SwapPairs(digits);
      SwappedDigits(digits);
      assert ParseInt(swapped) == if |swapped| == 0 then None else Some(DigitsValue(swapped)) by {
        if |swapped| == 0 {
          ParseIntNeedsDigit(swapped);
        } else {
          ParseIntDigits(swapped);
        }
      }
      assert DigitsValue(swapped) < Pow10(10) by {
        DigitsValueBound(swapped);
        Pow10Monotone(|swapped|, 10);
      }
      ParseInt(swapped)
  }

  lemma {:induction false} Pow10Monotone(a: nat, b: nat)
    requires a <= b
    ensures Pow10(a) <= Pow10(b)
    decreases b
  {
    if a < b {
      Pow10Monotone(a, b - 1);
    }
  }

  /** The reply to `AT+CRSM=176,12258,0,0,10` carries the twenty ICCID
      digits nibble-swapped in its third field, followed by whatever the
      modem appends (a closing quote, a status word, `OK`); the engine keys the
      card by ICCID digits nine to eighteen. */
  lemma IccidOfSimRead(p: string, q: string, iccid: string, tail: string)
    requires ',' !in p && ',' !in q
    requires |iccid| == 20 && AllDigits(iccid)
    requires ',' !in tail
    ensures ExtractIccid(p + "," + q + "," + ("\"" + SwapPairs(iccid) + tail)) == Some(DigitsValue(iccid[8..18]))
  {
    var x := SwapPairs(iccid);
    var response := p + "," + q + "," + ("\"" + x + tail);
    SwappedDigits(iccid);
    SimReadDigits(p, q, x, tail);
    IccidOfDigits(response, x[8..18]);
    IccidUnswapped(iccid);
  }

  /** The number read from selected digits. */
  lemma IccidOfDigits(response: string, digits: string)
    requires IccidDigits(response) == Some(digits) && |digits| > 0
    ensures AllDigits(SwapPairs(digits))
    ensures ExtractIccid(response) == Some(DigitsValue(SwapPairs(digits)))
  {
    SwappedDigits(digits);
  }

  /** The digits `extract_iccid` selects from the swapped ICCID field. */
  lemma SimReadDigits(p: string, q: string, x: string, tail: string)
    requires ',' !in p && ',' !in q
    requires |x| == 20 && AllDigits(x)
    requires ',' !in tail
    ensures IccidDigits(p + "," + q + "," + ("\"" + x + tail)) == Some(x[8..18])
  {
    var field := "\"" + x + tail;
    CommaFreeField(x, tail);
    ThreeFields(p, q, field);
    IccidWindow(x, tail);
    var d := KeepDigits(DropEnds(Strip(field, IsQuote)));
    if |d| <= 10 {
      assert d == d[..10];
    }
  }

  lemma CommaFreeField(x: string, tail: string)
    requires AllDigits(x) && ',' !in tail
    ensures ',' !in "\"" + x + tail
  {
    DigitsFree(x);
  }

  lemma SwappedDigits(s: string)
    requires AllDigits(s)
    ensures AllDigits(SwapPairs(s))
  {
    var x := SwapPairs(s);
    forall i | 0 <= i < |x| ensures IsDigit(x[i]) {
      SwapPairsAt(s, i);
    }
  }

  lemma ThreeFields(p: string, q: string, field: string)
    requires ',' !in p && ',' !in q && ',' !in field
    ensures Split(p + "," + q + "," + field, ',') == [p, q, field]
  {
    var response := p + "," + q + "," + field;
    assert response == p + [','] + (q + [','] + field);
    SplitOnAfterFree(p, [','], q + [','] + field);
    SplitOnAfterFree(q, [','], field);
    SplitOnFree(field, [',']);
  }

  /** Of a quoted run of twenty digits and any tail, `extract_iccid`
      keeps digits nine to eighteen first. */
  lemma IccidWindow(x: string, tail: string)
    requires |x| == 20 && AllDigits(x)
    ensures var d := KeepDigits(DropEnds(Strip("\"" + x + tail, IsQuote)));
      |d| >= 10 && d[..10] == x[8..18]
  {
    var m := StripOpeningQuote(x, tail);
    var s := x + tail[..m];
    var w := s[18..18 + m];
    assert DropEnds(s) == x[8..18] + w;
    DigitsLead(x[8..18], w);
  }

  /** Digits in front survive the digit filter, in front. */
  lemma DigitsLead(a: string, b: string)
    requires AllDigits(a)
    ensures |KeepDigits(a + b)| >= |a| && KeepDigits(a + b)[..|a|] == a
  {
    KeepDigitsAppend(a, b);
    var k := KeepDigits(a);
    assert k == a;
  }

  /** `strip('"')` of an opening quote, text with no quote at its ends, and a
      tail removes the quote and some suffix of the tail. */
  lemma StripOpeningQuote(x: string, tail: string) returns (m: nat)
    requires |x| > 0 && !IsQuote(x[0]) && !IsQuote(x[|x| - 1])
    ensures m <= |tail| && Strip("\"" + x + tail, IsQuote) == x + tail[..m]
  {
    var s := "\"" + x + tail;
    var l := LStrip(s, IsQuote);
    assert s[1] == x[0];
    LStripOne(s, IsQuote);
    assert l == x + tail;
    var r := RStrip(l, IsQuote);
    assert l[|x| - 1] == x[|x| - 1];
    RStripKeeps(l, IsQuote, |x| - 1);
    m := |r| - |x|;
    assert r == (x + tail)[..|x| + m];
  }

  lemma {:induction false} KeepDigitsAppend(a: string, b: string)
    ensures KeepDigits(a + b) == KeepDigits(a) + KeepDigits(b)
    decreases |a|
  {
    if |a| == 0 {
      assert a + b == b;
    } else {
      assert (a + b)[1..] == a[1..] + b;
      KeepDigitsAppend(a[1..], b);
    }
  }

  /** Pair swapping is undone on the aligned window of digits nine to
      eighteen. */
  lemma IccidUnswapped(iccid: string)
    requires |iccid| == 20
    ensures SwapPairs(SwapPairs(iccid)[8..18]) == iccid[8..18]
  {
    var a, m, z := iccid[..8], iccid[8..18], iccid[18..];
    assert iccid == a + (m + z);
    SwapPairsAppend(a, m + z);
    SwapPairsAppend(m, z);
    var x := SwapPairs(iccid);
    assert x == SwapPairs(a) + (SwapPairs(m) + SwapPairs(z));
    assert x[8..18] == SwapPairs(m);
    SwapPairsInvolution(m);
  }

  // ---------------------------------------------------------------------
  // SMS bodies (hexadecimal UTF-16BE)

  predicate IsNul(c: char) {
    c == '\0'
  }

  /** `decode_sms`: hexadecimal text to bytes, bytes as UTF-16BE, trailing
      NULs stripped, then every newline removed; `None` when the hex or the
      UTF-16 is invalid. */
  function DecodeSms(hex: string): (r: Option<string>)
    ensures r.Some? <==> match FromHex(hex)
                        case None => false
                        case Some(b) => |b| % 2 == 0 && WellFormedUtf16(CodeUnits(b))
    ensures r.Some? ==> '\n' !in r.value
  {
    match FromHex(hex)
    case None => None
    case Some(b) =>
      Utf16BeDecodeSucceeds(b);
      match Utf16BeDecode(b)
      case None => None
      case Some(t) =>
        var body := RStrip(t, IsNul);
        ReplaceByNothing(body, '\n');
        Some(Replace(body, "\n", ""))
  }

  /** Text without newlines and not ending in NUL survives the trip through
      UTF-16BE and hexadecimal. */
  lemma DecodeSmsRoundTrip(s: string)
    requires '\n' !in s
    requires |s| == 0 || s[|s| - 1] != '\0'
    ensures DecodeSms(ToHex(Utf16BeEncode(s))) == Some(s)
  {
    FromHexToHex(Utf16BeEncode(s));
    Utf16RoundTrip(s);
    assert RStrip(s, IsNul) == s;
    WithoutAbsentChar(s, '\n');
    ReplaceByNothing(s, '\n');
  }

  /** NULs are stripped before newlines are removed, so a NUL followed by a
      final newline is kept. */
  lemma DecodeSmsKeepsNulBeforeNewline(s: string)
    requires '\n' !in s
    ensures DecodeSms(ToHex(Utf16BeEncode(s + "\0\n"))) == Some(s + "\0")
  {
    var t := s + "\0\n";
    FromHexToHex(Utf16BeEncode(t));
    Utf16RoundTrip(t);
    assert RStrip(t, IsNul) == t;
    ReplaceByNothing(t, '\n');
    WithoutAppend(s, "\0\n", '\n');
    WithoutAbsentChar(s, '\n');
    assert Without("\0\n", '\n') == "\0";
  }

  lemma {:induction false} WithoutAbsentChar(s: string, c: char)
    requires c !in s
    ensures Without(s, c) == s
    decreases |s|
  {
    if |s| > 0 {
      WithoutAbsentChar(s[1..], c);
    }
  }

  lemma {:induction false} WithoutAppend(a: string, b: string, c: char)
    ensures Without(a + b, c) == Without(a, c) + Without(b, c)
    decreases |a|
  {
    if |a| > 0 {
      assert (a + b)[1..] == a[1..] + b;
      WithoutAppend(a[1..], b, c);
    } else {
      assert a + b == b;
    }
  }

  // ---------------------------------------------------------------------
  // SMS listings (`AT+CMGL="ALL"`)

  datatype SmsEntry = SmsEntry(sender: string, timestamp: string, message: string)

  /** One `+CMGL:` segment: a header line whose comma-separated fields 2 and 4
      are sender and timestamp, then the hexadecimal body; `None` (the
      segment is skipped) when there is no second line. */
  function ParseSegment(segment: string): (r: Option<SmsEntry>)
    ensures r.Some? <==> Contains(segment, CrLf)
    ensures r.Some? ==> '"' !in r.value.sender && '"' !in r.value.timestamp
  {
    var lines := SplitOn(segment, CrLf);
    SplitOnCount(segment, CrLf);
    if |lines| < 2 then None
    else
      var info := Split(lines[0], ',');
      var sender := if |info| > 2 then Unquote(info[2]) else "";
      var timestamp := if |info| > 4 then Unquote(info[4]) else "";
      var content := Strip(lines[1], IsPySpace);
      Some(SmsEntry(sender, timestamp, DecodeSms(content).GetOr(content)))
  }

  /** The entries of the segments, skipped segments left out. */
  function ParseSegments(segments: seq<string>): (r: seq<SmsEntry>)
    ensures |r| <= |segments|
    decreases |segments|
  {
    if |segments| == 0 then []
    else
      match ParseSegment(segments[0])
      case Some(e) => [e] + ParseSegments(segments[1..])
      case None => ParseSegments(segments[1..])
  }

  /** No segment is lost exactly when every segment has a body line. */
  lemma {:induction false} ParseSegmentsKeepsAll(segments: seq<string>)
    ensures |ParseSegments(segments)| == |segments| <==> AllHaveBody(segments)
    decreases |segments|
  {
    if |segments| > 0 {
      ParseSegmentsKeepsAll(segments[1..]);
      ParseSegmentsStep(segments);
      AllHaveBodyStep(segments);
    }
  }

  /** Every segment has a line break after its header. */
  predicate AllHaveBody(segments: seq<string>) {
    forall i :: 0 <= i < |segments| ==> Contains(segments[i], CrLf)
  }

  lemma ParseSegmentsStep(segments: seq<string>)
    requires |segments| > 0
    ensures |ParseSegments(segments)|
         == (if Contains(segments[0], CrLf) then 1 else 0) + |ParseSegments(segments[1..])|
  {
  }

  lemma AllHaveBodyStep(segments: seq<string>)
    requires |segments| > 0
    ensures AllHaveBody(segments) <==> Contains(segments[0], CrLf) && AllHaveBody(segments[1..])
  {
    assert forall i :: 1 <= i < |segments| ==> segments[i] == segments[1..][i - 1];
  }

  /** The SMS list of a cleaned `+CMGL` reply: at most one entry per
      `+CMGL:` marker, in order. */
  function ParseSmsList(clean: string): (r: seq<SmsEntry>)
    ensures |r| <= |SplitOn(clean, "+CMGL:")| - 1
  {
    ParseSegments(SplitOn(clean, "+CMGL:")[1..])
  }

  /** A listed message, header fields free of commas and line breaks and a
      body in UCS2 hex, comes out with the sender, timestamp and text it was
      listed with, whether or not another line follows. */
  lemma ParseListedMessage(f0: string, f1: string, sender: string, f3: string, timestamp: string,
                           text: string, tail: string)
    requires ',' !in f0 && '\r' !in f0 && ',' !in f1 && '\r' !in f1 && ',' !in f3 && '\r' !in f3
    requires ',' !in sender && '\r' !in sender && '"' !in sender
    requires ',' !in timestamp && '\r' !in timestamp && '"' !in timestamp
    requires '\n' !in text && (|text| == 0 || text[|text| - 1] != '\0')
    requires tail == [] || StartsWith(tail, CrLf)
    ensures var fields := [f0, f1, Quote(sender), f3, Quote(timestamp)];
      ParseSegment(Join(fields, ",") + CrLf + ToHex(Utf16BeEncode(text)) + tail)
        == Some(SmsEntry(sender, timestamp, text))
  {
    var fields := [f0, f1, Quote(sender), f3, Quote(timestamp)];
    var header := Join(fields, ",");
    var hex := ToHex(Utf16BeEncode(text));
    QuoteFree(sender, ',');
    QuoteFree(timestamp, ',');
    QuoteFree(sender, '\r');
    QuoteFree(timestamp, '\r');
    assert forall i :: 0 <= i < |fields| ==> ',' !in fields[i] && '\r' !in fields[i];
    ListedFields(fields, sender, timestamp, text, tail);
  }

  /** `ParseListedMessage` for any five header fields free of commas and
      line breaks. */
  lemma ListedFields(fields: seq<string>, sender: string, timestamp: string, text: string, tail: string)
    requires |fields| == 5 && fields[2] == Quote(sender) && fields[4] == Quote(timestamp)
    requires forall i :: 0 <= i < |fields| ==> ',' !in fields[i] && '\r' !in fields[i]
    requires '"' !in sender && '"' !in timestamp
    requires '\n' !in text && (|text| == 0 || text[|text| - 1] != '\0')
    requires tail == [] || StartsWith(tail, CrLf)
    ensures ParseSegment(Join(fields, ",") + CrLf + ToHex(Utf16BeEncode(text)) + tail)
      == Some(SmsEntry(sender, timestamp, text))
  {
    var header := Join(fields, ",");
    NotInJoin(fields, ",", '\r');
    SplitOnJoinInverse(fields, ",");
    HexBodyDecodes(text);
    ListedSegment(header, ToHex(Utf16BeEncode(text)), tail, fields, sender, timestamp, text);
  }



  /** The entry of a listing segment whose header fields and body are
      known. */
  lemma ListedSegment(header: string, hex: string, tail: string, fields: seq<string>,
                      sender: string, timestamp: string, text: string)
    requires '\r' !in header && Split(header, ',') == fields
    requires |fields| == 5 && fields[2] == Quote(sender) && fields[4] == Quote(timestamp)
    requires '"' !in sender && '"' !in timestamp
    requires forall i :: 0 <= i < |hex| ==> IsHexDigit(hex[i])
    requires Strip(hex, IsPySpace) == hex && DecodeSms(hex) == Some(text)
    requires tail == [] || StartsWith(tail, CrLf)
    ensures ParseSegment(header + CrLf + hex + tail) == Some(SmsEntry(sender, timestamp, text))
  {
    ListingLines(header, hex, tail);
    UnquoteQuoted(sender);
    UnquoteQuoted(timestamp);
  }


  /** A body that is not a UCS2 hex string is kept as it stands, so the
      message is not lost. */
  lemma UndecodableBodyKept(header: string, body: string)
    requires '\r' !in header && '\r' !in body
    requires |body| == 0 || (!IsPySpace(body[0]) && !IsPySpace(body[|body| - 1]))
    requires DecodeSms(body).None?
    ensures ParseSegment(header + CrLf + body).Some?
    ensures ParseSegment(header + CrLf + body).value.message == body
  {
    SplitOnAfterFree(header, CrLf, body);
    SplitOnFree(body, CrLf);
    StripNothing(body, IsPySpace);
  }

  /** A header with fewer than three fields has no sender, one with fewer
      than five no timestamp; the entry is kept with empty text for them. */
  lemma MissingFieldsBlank(header: string, rest: string)
    requires '\r' !in header
    ensures ParseSegment(header + CrLf + rest).Some?
    ensures |Split(header, ',')| <= 2 ==> ParseSegment(header + CrLf + rest).value.sender == ""
    ensures |Split(header, ',')| <= 4 ==> ParseSegment(header + CrLf + rest).value.timestamp == ""
  {
    SplitOnAfterFree(header, CrLf, rest);
  }

  /** A header line, a line break and a hexadecimal body split into the
      header and the body. */
  lemma ListingLines(header: string, hex: string, tail: string)
    requires '\r' !in header
    requires forall i :: 0 <= i < |hex| ==> IsHexDigit(hex[i])
    requires tail == [] || StartsWith(tail, CrLf)
    ensures var lines := SplitOn(header + CrLf + hex + tail, CrLf);
      |lines| >= 2 && lines[0] == header && lines[1] == hex
  {
    assert '\r' !in hex by {
      forall i | 0 <= i < |hex| ensures hex[i] != '\r' { assert IsHexDigit(hex[i]); }
    }
    assert header + CrLf + hex + tail == header + CrLf + (hex + tail);
    SplitOnAfterFree(header, CrLf, hex + tail);
    if tail == [] {
      assert hex + tail == hex;
      SplitOnFree(hex, CrLf);
    } else {
      assert hex + tail == hex + CrLf + tail[2..];
      SplitOnAfterFree(hex, CrLf, tail[2..]);
    }
  }

  /** The stripped body line decodes to the text it encodes. */
  lemma HexBodyDecodes(text: string)
    requires '\n' !in text && (|text| == 0 || text[|text| - 1] != '\0')
    ensures var hex := ToHex(Utf16BeEncode(text));
      Strip(hex, IsPySpace) == hex && DecodeSms(hex) == Some(text)
  {
    var hex := ToHex(Utf16BeEncode(text));
    if |hex| > 0 {
      assert IsHexDigit(hex[0]) && IsHexDigit(hex[|hex| - 1]);
    }
    StripNothing(hex, IsPySpace);
    DecodeSmsRoundTrip(text);
  }

  lemma QuoteFree(s: string, c: char)
    requires c !in s && c != '"'
    ensures c !in Quote(s)
  {
  }

  lemma UnquoteQuoted(s: string)
    requires '"' !in s
    ensures Unquote(Quote(s)) == s
  {
    WithoutAppend("\"" + s, "\"", '"');
    WithoutAppend("\"", s, '"');
    WithoutAbsentChar(s, '"');
    assert Quote(s) == "\"" + s + "\"";
  }

  // ---------------------------------------------------------------------
  // USSD, operator, MSISDN

  /** `extract_phone_number`: in a reply that decodes and mentions `CUSD:`,
      the text between the first double quote and the next one (or the end). */
  function ExtractPhoneNumber(reply: Reply): (r: Option<string>)
    ensures r.Some? <==> reply.Utf8? && Contains(reply.text, "CUSD:") && '"' in reply.text
    ensures r.Some? ==> '"' !in r.value
  {
    match Strict(reply)
    case None => None
    case Some(t) =>
      if Contains(t, "CUSD:") then
        var parts := Split(t, '"');
        SplitOnCount(t, "\"");
        ContainsSingle(t, '"');
        if |parts| >= 2 then
          SplitPiecesFree(t, '"', 1);
          Some(parts[1])
        else None
      else None
  }

  /** The `i`-th piece of a split on one character does not contain it. */
  lemma SplitPiecesFree(s: string, c: char, i: nat)
    requires i < |Split(s, c)|
    ensures c !in Split(s, c)[i]
  {
    SplitOnJoin(s, [c]);
    SplitPieceFree(s, [c], i);
    ContainsSingle(Split(s, c)[i], c);
  }

  lemma {:induction false} SplitPieceFree<T>(s: seq<T>, sep: seq<T>, i: nat)
    requires |sep| > 0 && i < |SplitOn(s, sep)|
    ensures !Contains(SplitOn(s, sep)[i], sep)
    decreases |s|
  {
    SplitOnFirst(s, sep);
    if i > 0 {
      if StartsWith(s, sep) {
        SplitPieceFree(s[|sep|..], sep, i - 1);
      } else {
        assert |s| > 0;
        SplitPieceFree(s[1..], sep, i);
      }
    }
  }

  /** Every element of a piece of a split comes from the text split. */
  lemma {:induction false} PieceInside<T>(s: seq<T>, sep: seq<T>, i: nat)
    requires |sep| > 0 && i < |SplitOn(s, sep)|
    ensures forall x :: x in SplitOn(s, sep)[i] ==> x in s
    decreases |s|
  {
    if StartsWith(s, sep) {
      if i > 0 {
        PieceInside(s[|sep|..], sep, i - 1);
        assert forall x :: x in s[|sep|..] ==> x in s;
      }
    } else if |s| > 0 {
      PieceInside(s[1..], sep, i);
      assert forall x :: x in s[1..] ==> x in s;
    }
  }

  /** A USSD answer `...CUSD: ..."<text>"...` yields the quoted text. */
  lemma PhoneNumberOfUssd(a: string, text: string, b: string)
    requires Contains(a, "CUSD:") && '"' !in a && '"' !in text
    ensures ExtractPhoneNumber(Utf8(a + Quote(text) + b)) == Some(text)
  {
    var t := a + Quote(text) + b;
    assert t == a + "\"" + (text + "\"" + b);
    ContainsExtends(a, Quote(text) + b, "CUSD:");
    assert a + (Quote(text) + b) == t;
    SplitOnAfterFree(a, "\"", text + "\"" + b);
    SplitOnAfterFree(text, "\"", b);
  }

  /** `decoded.split(',')[2].replace('"', '')` on an `+COPS:` reply; `None`
      where Python raises `IndexError` (fewer than three fields). */
  function OperatorName(clean: string): (r: Option<string>)
    ensures r.Some? <==> |Split(clean, ',')| >= 3
    ensures r.Some? ==> '"' !in r.value
  {
    var fields := Split(clean, ',');
    if |fields| >= 3 then Some(Unquote(fields[2])) else None
  }

  /** `+COPS: <mode>,<format>,"<name>",...` yields the operator name. */
  lemma OperatorOfCops(mode: string, format: string, name: string, more: seq<string>)
    requires ',' !in mode && ',' !in format && ',' !in name && '"' !in name
    requires forall i :: 0 <= i < |more| ==> ',' !in more[i]
    ensures OperatorName(Join([mode, format, Quote(name)] + more, ",")) == Some(name)
  {
    var front := [mode, format, Quote(name)];
    var fields := front + more;
    QuoteFree(name, ',');
    FreeConcat3(mode, format, Quote(name), more, ',');
    assert ","[0] == ',';
    SplitOnJoinInverse(fields, ",");
    assert fields[2] == Quote(name);
    UnquoteQuoted(name);
  }

  lemma FreeConcat3<T>(a: seq<T>, b: seq<T>, c: seq<T>, more: seq<seq<T>>, x: T)
    requires x !in a && x !in b && x !in c
    requires forall i :: 0 <= i < |more| ==> x !in more[i]
    ensures forall i :: 0 <= i < |[a, b, c] + more| ==> x !in ([a, b, c] + more)[i]
  {
    var s := [a, b, c] + more;
    forall i | 0 <= i < |s| ensures x !in s[i] {
      if i >= 3 {
        assert s[i] == more[i - 3];
      }
    }
  }

  /** The MSISDN of a phonebook-storage reply: the first quoted part when it
      starts with `MSISDN:`, its text after that colon (up to any next colon),
      whitespace stripped. */
  function Msisdn(clean: string): (r: Option<string>)
    ensures r.Some? <==> |Split(clean, '"')| >= 2 && StartsWith(Split(clean, '"')[1], "MSISDN:")
    ensures r.Some? ==> ':' !in r.value && '"' !in r.value
  {
    var parts := Split(clean, '"');
    if |parts| >= 2 && StartsWith(parts[1], "MSISDN:") then
      LabelledFields(clean, parts[1]);
      var number := Split(parts[1], ':')[1];
      StripInside(number, IsPySpace);
      Some(Strip(number, IsPySpace))
    else None
  }

  /** `... "MSISDN: <n>" ...`, the first quoted part, yields the number `n`
      when it holds no colon and has no whitespace at its ends. */
  lemma MsisdnOfQuoted(a: string, n: string, b: string)
    requires '"' !in a && ':' !in n && '"' !in n
    requires |n| == 0 || (!IsPySpace(n[0]) && !IsPySpace(n[|n| - 1]))
    ensures Msisdn(a + "\"MSISDN: " + n + "\"" + b) == Some(n)
  {
    var part := "MSISDN: " + n;
    QuotedPart(a, part, b);
    assert a + "\"" + part + "\"" + b == a + "\"MSISDN: " + n + "\"" + b;
    LabelledPart(n);
    StripSpaced(n);
  }

  /** The first quoted part of `a"<part>"b` is `part`. */
  lemma QuotedPart(a: string, part: string, b: string)
    requires '"' !in a && '"' !in part
    ensures var parts := Split(a + "\"" + part + "\"" + b, '"');
      |parts| >= 2 && parts[1] == part
  {
    assert a + "\"" + part + "\"" + b == a + "\"" + (part + "\"" + b);
    SplitOnAfterFree(a, "\"", part + "\"" + b);
    SplitOnAfterFree(part, "\"", b);
  }

  /** `MSISDN: <n>` starts with the label, holds no quote when `n` holds
      none, and its second colon-separated field is ` <n>`. */
  lemma LabelledPart(n: string)
    requires ':' !in n && '"' !in n
    ensures var part := "MSISDN: " + n;
      && '"' !in part && StartsWith(part, "MSISDN:")
      && |Split(part, ':')| >= 2 && Split(part, ':')[1] == " " + n
  {
    var part := "MSISDN: " + n;
    assert forall i :: 8 <= i < |part| ==> part[i] == n[i - 8];
    assert part[..7] == "MSISDN:";
    assert part == "MSISDN" + ":" + (" " + n);
    SplitOnAfterFree("MSISDN", ":", " " + n);
    SplitOnFree(" " + n, ":");
  }

  /** One leading space is stripped from a text with no whitespace at its
      ends. */
  lemma StripSpaced(n: string)
    requires |n| == 0 || (!IsPySpace(n[0]) && !IsPySpace(n[|n| - 1]))
    ensures Strip(" " + n, IsPySpace) == n
  {
    var s := " " + n;
    if |n| == 0 {
      assert LeadingDropped(s[1..], IsPySpace) == 0;
      assert LStrip(s, IsPySpace) == [];
    } else {
      assert s[1..] == n;
      LStripOne(s, IsPySpace);
      StripNothing(n, IsPySpace);
      assert LeadingDropped(n, IsPySpace) == 0;
    }
  }

  /** A quoted part starting `MSISDN:` has a second colon-separated field,
      and neither quote nor colon occurs in it. */
  lemma LabelledFields(clean: string, part: string)
    requires |Split(clean, '"')| >= 2 && part == Split(clean, '"')[1]
    requires StartsWith(part, "MSISDN:")
    ensures |Split(part, ':')| >= 2
    ensures ':' !in Split(part, ':')[1] && '"' !in Split(part, ':')[1]
  {
    assert part[6] == ':';
    ContainsSingle(part, ':');
    SplitOnCount(part, ":");
    SplitPiecesFree(part, ':', 1);
    SplitPiecesFree(clean, '"', 1);
    PieceInside(part, ":", 1);
  }

  // ---------------------------------------------------------------------
  // SMS storage counts (`AT+CPMS="SM"`)

  datatype SmsCount = SmsCount(used: int, total: int)

  /** `count_sms_in_sim` after the transport call: `<tag>:<used>,<total>,...`
      read as two integers; `None` stands for `(None, None)` and covers an
      absent or empty reply, undecodable bytes, a missing field and a field
      that is not an integer. */
  function ParseCount(reply: Option<Reply>): (r: Option<SmsCount>)
    ensures r.Some? ==> Present(reply) && reply.value.Utf8?
    ensures r.Some? ==> var parts := Split(reply.value.text, ',');
      && |parts| >= 2 && |Split(parts[0], ':')| >= 2
      && ParseInt(Strip(Split(parts[0], ':')[1], IsPySpace)) == Some(r.value.used)
      && ParseInt(Strip(parts[1], IsPySpace)) == Some(r.value.total)
  {
    if !Present(reply) then None
    else
      match Strict(reply.value)
      case None => None
      case Some(t) => CountFields(t)
  }

  /** The decoded report's fields `<tag>:<used>` and `<total>`, each
      stripped and read as an integer. */
  function CountFields(t: string): (r: Option<SmsCount>)
    ensures r.Some? ==> var parts := Split(t, ',');
      && |parts| >= 2 && |Split(parts[0], ':')| >= 2
      && ParseInt(Strip(Split(parts[0], ':')[1], IsPySpace)) == Some(r.value.used)
      && ParseInt(Strip(parts[1], IsPySpace)) == Some(r.value.total)
  {
    var parts := Split(t, ',');
    var head := Split(parts[0], ':');
    if |head| < 2 || |parts| < 2 then None
    else
      var used := ParseInt(Strip(head[1], IsPySpace));
      var total := ParseInt(Strip(parts[1], IsPySpace));
      if used.Some? && total.Some? then Some(SmsCount(used.value, total.value)) else None
  }

  /** A storage report `<tag>: <used>,<total>...` yields both numbers. */
  lemma CountOfStorageReport(tag: string, used: nat, total: nat, tail: string)
    requires ',' !in tag && ':' !in tag
    requires tail == [] || tail[0] == ','
    ensures ParseCount(Some(Utf8(tag + ": " + ShowNat(used) + "," + ShowNat(total) + tail)))
            == Some(SmsCount(used, total))
  {
    var u := ShowNat(used);
    var t := ShowNat(total);
    DigitsFree(u);
    DigitsFree(t);
    var text := tag + ": " + u + "," + t + tail;
    ReportFields(tag, u, t, tail);
    ParseIntSpaced(u, used);
    ParseIntPlain(t, total);
    CountOfFields(text, used, total);
  }

  /** Whenever both fields read as integers, the count is read: the converse
      of `ParseCount`'s contract. */
  lemma CountOfFields(text: string, used: int, total: int)
    requires |text| > 0
    requires var parts := Split(text, ',');
      && |parts| >= 2 && |Split(parts[0], ':')| >= 2
      && ParseInt(Strip(Split(parts[0], ':')[1], IsPySpace)) == Some(used)
      && ParseInt(Strip(parts[1], IsPySpace)) == Some(total)
    ensures ParseCount(Some(Utf8(text))) == Some(SmsCount(used, total))
  {
    DecodedCount(text);
    FieldsCounted(text, used, total);
  }

  lemma DecodedCount(text: string)
    requires |text| > 0
    ensures ParseCount(Some(Utf8(text))) == CountFields(text)
  {
    assert Present(Some(Utf8(text)));
  }

  lemma FieldsCounted(text: string, used: int, total: int)
    requires var parts := Split(text, ',');
      && |parts| >= 2 && |Split(parts[0], ':')| >= 2
      && ParseInt(Strip(Split(parts[0], ':')[1], IsPySpace)) == Some(used)
      && ParseInt(Strip(parts[1], IsPySpace)) == Some(total)
    ensures CountFields(text) == Some(SmsCount(used, total))
  {
    var parts := Split(text, ',');
    var head := Split(parts[0], ':');
    assert ParseInt(Strip(head[1], IsPySpace)) == Some(used);
    assert ParseInt(Strip(parts[1], IsPySpace)) == Some(total);
  }

  /** How the report splits at commas and at the colon. */
  lemma ReportFields(tag: string, u: string, t: string, tail: string)
    requires ',' !in tag && ':' !in tag && ',' !in u && ':' !in u && ',' !in t
    requires tail == [] || tail[0] == ','
    ensures var parts := Split(tag + ": " + u + "," + t + tail, ',');
      && |parts| >= 2 && parts[0] == tag + ": " + u && parts[1] == t
      && Split(parts[0], ':') == [tag, " " + u]
  {
    var head := tag + ": " + u;
    assert tag + ": " + u + "," + t + tail == head + "," + (t + tail);
    assert ',' !in head;
    SplitOnAfterFree(head, ",", t + tail);
    if tail == [] {
      assert t + tail == t;
      SplitOnFree(t, ",");
    } else {
      assert t + tail == t + "," + tail[1..];
      SplitOnAfterFree(t, ",", tail[1..]);
    }
    assert head == tag + ":" + (" " + u);
    assert ':' !in " " + u;
    SplitOnAfterFree(tag, ":", " " + u);
    SplitOnFree(" " + u, ":");
  }

  lemma DigitsFree(s: string)
    requires AllDigits(s)
    ensures ',' !in s && ':' !in s
  {
    forall i | 0 <= i < |s| ensures s[i] != ',' && s[i] != ':' {
      assert IsDigit(s[i]);
    }
  }

  lemma ParseIntSpaced(u: string, n: nat)
    requires u == ShowNat(n)
    ensures ParseInt(Strip(" " + u, IsPySpace)) == Some(n)
  {
    assert IsDigit(u[0]) && IsDigit(u[|u| - 1]);
    StripSpaced(u);
    assert ShowInt(n) == u;
    ParseIntShowInt(n);
  }

  lemma ParseIntPlain(t: string, n: nat)
    requires t == ShowNat(n)
    ensures ParseInt(Strip(t, IsPySpace)) == Some(n)
  {
    assert IsDigit(t[0]) && IsDigit(t[|t| - 1]);
    StripNothing(t, IsPySpace);
    assert ShowInt(n) == t;
    ParseIntShowInt(n);
  }

  /** `delete_all_sms` after the transport call: success is a present reply
      containing `OK`. */
  function DeleteConfirmed(reply: Option<Reply>): (r: bool)
    ensures r ==> reply.Some? && (reply.value.Utf8? ==> Contains(reply.value.text, "OK"))
  {
    Acknowledged(reply)
  }

  /** The delete is confirmed exactly when `OK` occurs somewhere in the
      reply's bytes; an empty reply never holds it. */
  lemma DeleteConfirmedIff(reply: Option<Reply>)
    ensures DeleteConfirmed(reply) <==> match reply
      case None => false
      case Some(Utf8(t)) => exists i :: OccursAt(t, "OK", i)
      case Some(NonUtf8(b)) => exists i :: OccursAt(b, [0x4F, 0x4B], i)
  {
    if reply.Some? {
      match reply.value
      case Utf8(t) =>
        ContainsIff(t, "OK");
        if exists i :: OccursAt(t, "OK", i) {
          var i :| OccursAt(t, "OK", i);
          assert |t| >= 2;
        }
      case NonUtf8(b) =>
        ContainsIff(b, [0x4F, 0x4B]);
        if exists i :: OccursAt(b, [0x4F, 0x4B], i) {
          var i :| OccursAt(b, [0x4F, 0x4B], i);
          assert |b| >= 2;
        }
    }
  }
}

=== FILE: dicts.dfy ===
/** Python dictionaries with string keys, as the engine builds them: entries
    kept in insertion order (the order the record is written out in),
    assignment replacing a value in place, `del` removing an entry. */
module Dicts {
  import opened Wrappers
  import opened Text

  type Dict<V> = seq<(string, V)>

  function Keys<V>(d: Dict<V>): (ks: seq<string>)
    ensures |ks| == |d|
    ensures forall i :: 0 <= i < |d| ==> ks[i] == d[i].0
  {
    if |d| == 0 then [] else [d[0].0] + Keys(d[1..])
  }

  predicate Distinct<T(==)>(s: seq<T>) {
    forall i, j :: 0 <= i < j < |s| ==> s[i] != s[j]
  }

  /** No key occurs twice, as in every Python dict. */
  predicate UniqueKeys<V>(d: Dict<V>) {
    Distinct(Keys(d))
  }

  /** `d.get(k)`. */
  function Get<V>(d: Dict<V>, k: string): (r: Option<V>)
    ensures r.Some? <==> k in Keys(d)
  {
    if |d| == 0 then None
    else if d[0].0 == k then Some(d[0].1)
    else Get(d[1..], k)
  }

  /** How the dictionary functions see an entry put in front. */
  lemma ConsKeys<V>(x: (string, V), d: Dict<V>)
    ensures Keys([x] + d) == [x.0] + Keys(d)
  {
    assert ([x] + d)[1..] == d;
  }

  lemma ConsGet<V>(x: (string, V), d: Dict<V>, k: string)
    ensures Get([x] + d, k) == if x.0 == k then Some(x.1) else Get(d, k)
  {
    assert ([x] + d)[1..] == d;
  }

  /** `d[k] = v`: a new key goes to the end, an existing one keeps its place. */
  function Put<V>(d: Dict<V>, k: string, v: V): (r: Dict<V>)
    ensures Keys(r) == if k in Keys(d) then Keys(d) else Keys(d) + [k]
    ensures Get(r, k) == Some(v)
  {
    if |d| == 0 then [(k, v)]
    else
      HeadTail(d);
      ConsKeys(d[0], d[1..]);
      if d[0].0 == k then
        ConsKeys((k, v), d[1..]);
        [(k, v)] + d[1..]
      else
        var rest := Put(d[1..], k, v);
        ConsKeys(d[0], rest);
        ConsGet(d[0], rest, k);
        SnocBehind(d[0].0, Keys(d[1..]), k);
        [d[0]] + rest
  }

  /** The key equation of `Put` past a first key that is not assigned. */
  lemma SnocBehind(x: string, ks: seq<string>, k: string)
    requires x != k
    ensures [x] + (if k in ks then ks else ks + [k]) == if k in [x] + ks then [x] + ks else [x] + ks + [k]
  {
    assert k in [x] + ks <==> k in ks;
  }

  /** `d[k] = v` leaves every other key's value alone. */
  lemma {:induction false} PutOther<V>(d: Dict<V>, k: string, v: V, k': string)
    requires k' != k
    ensures Get(Put(d, k, v), k') == Get(d, k')
  {
    if |d| > 0 {
      HeadTail(d);
      ConsGet(d[0], d[1..], k');
      if d[0].0 == k {
        ConsGet((k, v), d[1..], k');
      } else {
        PutOther(d[1..], k, v, k');
        ConsGet(d[0], Put(d[1..], k, v), k');
      }
    }
  }

  lemma DistinctSnoc<T>(s: seq<T>, x: T)
    requires Distinct(s) && x !in s
    ensures Distinct(s + [x])
  {
  }

  /** Assignment keeps the keys unique. */
  lemma PutUnique<V>(d: Dict<V>, k: string, v: V)
    requires UniqueKeys(d)
    ensures UniqueKeys(Put(d, k, v))
  {
    if k !in Keys(d) {
      DistinctSnoc(Keys(d), k);
    }
  }

  /** The keys after `d[k] = v` are those before, in the same order, and
      then `k` if it is new. */
  lemma PutKeys<V>(d: Dict<V>, k: string, v: V)
    ensures forall k' :: k' in Keys(Put(d, k, v)) <==> k' in Keys(d) || k' == k
    ensures IsPrefix(Keys(d), Keys(Put(d, k, v)))
  {
    var ks := Keys(d);
    if k !in ks {
      assert forall k' :: k' in ks + [k] <==> k' in ks || k' == k;
      assert (ks + [k])[..|ks|] == ks;
    }
  }

  /** `del d[k]` when `k in d`, and nothing otherwise. */
  function Delete<V>(d: Dict<V>, k: string): (r: Dict<V>)
    ensures Keys(r) == Without(Keys(d), k)
  {
    if |d| == 0 then []
    else
      HeadTail(d);
      ConsKeys(d[0], d[1..]);
      var rest := Delete(d[1..], k);
      if d[0].0 == k then rest
      else
        ConsKeys(d[0], rest);
        [d[0]] + rest
  }

  /** `del d[k]` leaves every other key's value alone. */
  lemma {:induction false} DeleteOther<V>(d: Dict<V>, k: string, k': string)
    requires k' != k
    ensures Get(Delete(d, k), k') == Get(d, k')
  {
    if |d| > 0 {
      HeadTail(d);
      ConsGet(d[0], d[1..], k');
      DeleteOther(d[1..], k, k');
      if d[0].0 != k {
        ConsGet(d[0], Delete(d[1..], k), k');
      }
    }
  }

  lemma {:induction false} DistinctWithout<T>(s: seq<T>, c: T)
    requires Distinct(s)
    ensures Distinct(Without(s, c))
  {
    if |s| > 0 {
      DistinctWithout(s[1..], c);
      if s[0] != c {
        var w := Without(s[1..], c);
        assert s[0] !in w by {
          assert forall i :: 1 <= i < |s| ==> s[i] != s[0];
        }
        assert Distinct([s[0]] + w);
      }
    }
  }

  /** Removal keeps the keys unique. */
  lemma DeleteUnique<V>(d: Dict<V>, k: string)
    requires UniqueKeys(d)
    ensures UniqueKeys(Delete(d, k))
  {
    DistinctWithout(Keys(d), k);
  }
}

=== FILE: numbers.dfy ===
/** Decimal digits: Python's `isdigit` (restricted to ASCII) and `int()` on
    text, with the rendering that inverts it. */
module Numbers {
  import opened Wrappers
  import opened Text

  predicate IsDigit(c: char) {
    '0' <= c <= '9'
  }

  predicate AllDigits(s: string) {
    forall i :: 0 <= i < |s| ==> IsDigit(s[i])
  }

  function DigitValue(c: char): (d: nat)
    requires IsDigit(c)
    ensures d < 10
  {
    c as int - '0' as int
  }

  function Digit(d: nat): (c: char)
    requires d < 10
    ensures IsDigit(c) && DigitValue(c) == d
  {
    ('0' as int + d) as char
  }

  function Pow10(n: nat): (p: nat)
    ensures p >= 1
  {
    if n == 0 then 1 else 10 * Pow10(n - 1)
  }

  /** The number a string of decimal digits denotes, most significant first. */
  function DigitsValue(s: string): nat
    requires AllDigits(s)
  {
    if |s| == 0 then 0 else DigitsValue(s[..|s| - 1]) * 10 + DigitValue(s[|s| - 1])
  }

  /** A string of `n` digits denotes a number below 10^n. */
  lemma {:induction false} DigitsValueBound(s: string)
    requires AllDigits(s)
    ensures DigitsValue(s) < Pow10(|s|)
  {
    if |s| > 0 {
      DigitsValueBound(s[..|s| - 1]);
    }
  }

  /** Decimal rendering without leading zeros (Python's `str(n)`). */
  function ShowNat(n: nat): (r: string)
    ensures |r| >= 1 && AllDigits(r)
    ensures r[0] == '0' ==> n == 0
  {
    if n < 10 then [Digit(n)] else ShowNat(n / 10) + [Digit(n % 10)]
  }

  /** Python's `str(n)` for any integer. */
  function ShowInt(n: int): string {
    if n < 0 then "-" + ShowNat(-n) else ShowNat(n)
  }

  /** Reading back a rendered number gives the number. */
  lemma {:induction false} ShowNatValue(n: nat)
    ensures DigitsValue(ShowNat(n)) == n
  {
    if n >= 10 {
      ShowNatValue(n / 10);
      var s := ShowNat(n);
      assert s[..|s| - 1] == ShowNat(n / 10);
    }
  }

  /** A digit group of Python's `int()`: digits, with single underscores
      allowed between two digits. */
  predicate WellGrouped(s: string) {
    && |s| > 0
    && IsDigit(s[0])
    && forall i :: 0 <= i < |s| ==> GroupChar(s, i)
  }

  /** The character at `i` is a digit, or an underscore followed by one. */
  predicate GroupChar(s: string, i: int)
    requires 0 <= i < |s|
  {
    IsDigit(s[i]) || (s[i] == '_' && i + 1 < |s| && IsDigit(s[i + 1]))
  }

  lemma GroupedDigits(s: string)
    requires WellGrouped(s)
    ensures AllDigits(Without(s, '_'))
  {
    var w := Without(s, '_');
    forall i | 0 <= i < |w|
      ensures IsDigit(w[i])
    {
      assert w[i] in w;
      var j :| 0 <= j < |s| && s[j] == w[i];
      assert GroupChar(s, j);
      assert w[i] != '_';
    }
  }

  lemma WithoutAbsent(s: string, c: char)
    requires c !in s
    ensures Without(s, c) == s
  {
  }

  /** The value of a digit group: its digits read with the underscores
      left out. */
  function GroupValue(s: string): nat
    requires WellGrouped(s)
  {
    GroupedDigits(s);
    DigitsValue(Without(s, '_'))
  }

  /** The whitespace `int()` skips around a number: the characters of
      `str.isspace()` except the ASCII separators U+001C to U+001F, which
      `str.strip()` removes but `int()` rejects. */
  predicate IsIntSpace(c: char) {
    IsPySpace(c) && !('\U{1C}' <= c <= '\U{1F}')
  }

  /** Python's `int(s)`: surrounding whitespace, an optional sign, then a
      digit group; anything else is a `ValueError`, modelled as `None`. */
  function ParseInt(s: string): Option<int> {
    ParseStripped(Strip(s, IsIntSpace))
  }

  /** `int()` after the surrounding whitespace is gone. */
  function ParseStripped(t: string): Option<int> {
    if |t| > 0 && (t[0] == '+' || t[0] == '-') then
      if WellGrouped(t[1..]) then
        var v: int := GroupValue(t[1..]);
        Some(if t[0] == '-' then -v else v)
      else None
    else if WellGrouped(t) then Some(GroupValue(t))
    else None
  }

  /** A plain run of digits is a digit group worth what the digits denote. */
  lemma DigitsGrouped(s: string)
    requires |s| > 0 && AllDigits(s)
    ensures WellGrouped(s) && GroupValue(s) == DigitsValue(s)
  {
    assert '_' !in s by {
      forall i | 0 <= i < |s| ensures s[i] != '_' { assert IsDigit(s[i]); }
    }
    WithoutAbsent(s, '_');
  }

  /** `int()` of a non-empty string of digits is the number they denote. */
  lemma ParseIntDigits(s: string)
    requires |s| > 0 && AllDigits(s)
    ensures ParseInt(s) == Some(DigitsValue(s))
  {
    DigitNotSpace(s[0]);
    DigitNotSpace(s[|s| - 1]);
    StripNothing(s, IsIntSpace);
    ParseStrippedDigits(s);
  }

  lemma DigitNotSpace(c: char)
    requires IsDigit(c)
    ensures !IsIntSpace(c) && !IsPySpace(c)
  {
  }

  /** A run of digits with nothing around it reads as the number it
      denotes. */
  lemma ParseStrippedDigits(s: string)
    requires |s| > 0 && AllDigits(s)
    ensures ParseStripped(s) == Some(DigitsValue(s))
  {
    DigitsGrouped(s);
    assert IsDigit(s[0]);
  }

  lemma ParseStrippedMinus(s: string)
    requires |s| > 0 && s[0] == '-' && WellGrouped(s[1..])
    ensures ParseStripped(s) == Some(0 - GroupValue(s[1..]))
  {
  }

  /** `int()` of a minus sign and a non-empty string of digits is the
      negated number the digits denote. */
  lemma ParseIntNegative(s: string)
    requires |s| > 1 && s[0] == '-' && AllDigits(s[1..])
    ensures ParseInt(s) == Some(0 - DigitsValue(s[1..]))
  {
    assert s[|s| - 1] == s[1..][|s| - 2];
    assert !IsIntSpace(s[0]) && !IsIntSpace(s[|s| - 1]);
    StripNothing(s, IsIntSpace);
    DigitsGrouped(s[1..]);
    ParseStrippedMinus(s);
  }

  /** `int(str(n)) == n` for every integer `n`. */
  lemma ParseIntShowInt(n: int)
    ensures ParseInt(ShowInt(n)) == Some(n)
  {
    var s := ShowInt(n);
    if n < 0 {
      var d := ShowNat(-n);
      assert s[1..] == d;
      ParseIntNegative(s);
      ShowNatValue(-n);
      assert DigitsValue(s[1..]) == -n;
    } else {
      assert s == ShowNat(n);
      ParseIntDigits(s);
      ShowNatValue(n);
      assert ParseInt(s) == Some(n);
    }
  }

  /** `int()` rejects text with no digit in it. */
  lemma ParseIntNeedsDigit(s: string)
    requires forall i :: 0 <= i < |s| ==> !IsDigit(s[i])
    ensures ParseInt(s) == None
  {
    var t := Strip(s, IsIntSpace);
    StripInside(s, IsIntSpace);
    if |t| > 0 {
      assert t[0] in s;
      if |t| > 1 {
        assert t[1] in s;
        assert t[1..][0] == t[1];
      }
    }
    assert ParseStripped(t) == None;
  }

  /** `str.strip()` removes every character `int()` would skip, so `int()`
      of stripped text reads it as it stands. */
  lemma ParseIntOfStripped(s: string)
    ensures ParseInt(Strip(s, IsPySpace)) == ParseStripped(Strip(s, IsPySpace))
  {
    var t := Strip(s, IsPySpace);
    if |t| > 0 {
      assert !IsIntSpace(t[0]) && !IsIntSpace(t[|t| - 1]);
    }
    StripNothing(t, IsIntSpace);
  }

  /** `int()` rejects a number led by U+001C, which `str.strip()` removes:
      the explicit `strip()` before `int()` is not redundant. */
  lemma SeparatorNotSkipped()
    ensures ParseInt("\U{1C}5") == None
    ensures ParseInt(Strip("\U{1C}5", IsPySpace)) == Some(5)
  {
    SeparatorKept();
    SeparatorStripped();
  }

  lemma SeparatorKept()
    ensures ParseInt("\U{1C}5") == None
  {
    var s := "\U{1C}5";
    assert !IsIntSpace(s[0]) && !IsIntSpace(s[|s| - 1]);
    StripNothing(s, IsIntSpace);
    assert !GroupChar(s, 0);
  }

  lemma SeparatorStripped()
    ensures Strip("\U{1C}5", IsPySpace) == "5"
    ensures ParseInt("5") == Some(5)
  {
    var pre, mid := "\U{1C}", "5";
    assert IsPySpace(pre[0]) && !IsPySpace(mid[0]);
    assert "\U{1C}5" == pre + mid + [];
    StripBetween(pre, mid, [], IsPySpace);
    FiveParsed();
  }

  lemma FiveParsed()
    ensures ParseInt("5") == Some(5)
  {
    ParseIntDigits("5");
    assert DigitsValue("5") == DigitsValue([]) * 10 + 5;
  }


}

=== FILE: orchestrator.dfy ===
/** `process_sim_cards` and the command-line dispatch (app/main.py): scan
    every detected port fully, or only the named one for its SMS listing;
    collect the records in the order the scans finish; then, when asked,
    clear the SMS storage of every scanned port. */
module Orchestrator {
  import opened Wrappers
  import opened Text
  import opened Transport
  import opened Decoders
  import opened Unlock
  import opened Scanner

  /** `delete_all_sms`: the command, sent with the default timeout. */
  const DeleteCommand := Exchange("AT+CMGD=1,4\r", DefaultTimeoutMs)

  // ---------------------------------------------------------------------
  // Completion order

  /** The task indices in submission order. */
  function Range(n: nat): (r: seq<nat>)
    ensures |r| == n
    ensures forall i :: 0 <= i < n ==> r[i] == i
  {
    seq(n, i requires 0 <= i < n => i)
  }

  /** The order in which the thread pool hands back the `n` scans: each
      task exactly once, in any order. */
  predicate IsCompletionOrder(order: seq<nat>, n: nat) {
    multiset(order) == multiset(Range(n))
  }

  predicate Indexes<T>(idx: seq<nat>, a: seq<T>) {
    forall k :: 0 <= k < |idx| ==> idx[k] < |a|
  }

  lemma CompletionOrderIndexes<T>(order: seq<nat>, a: seq<T>)
    requires IsCompletionOrder(order, |a|)
    ensures Indexes(order, a)
  {
    forall k | 0 <= k < |order|
      ensures order[k] < |a|
    {
      assert order[k] in multiset(Range(|a|));
    }
  }

  /** The present results among `a[idx[0]], a[idx[1]], …`, in that order:
      what `if port_data: data.append(port_data)` builds while the futures
      complete. */
  function Collect<T>(a: seq<Option<T>>, idx: seq<nat>): (r: seq<T>)
    requires Indexes(idx, a)
    ensures |r| <= |idx|
    ensures forall x :: x in r ==> exists k :: 0 <= k < |idx| && a[idx[k]] == Some(x)
    ensures forall k :: 0 <= k < |idx| && a[idx[k]].Some? ==> a[idx[k]].value in r
  {
    if |idx| == 0 then []
    else
      var rest := Collect(a, idx[1..]);
      assert forall k :: 1 <= k < |idx| ==> idx[k] == idx[1..][k - 1];
      (if a[idx[0]].Some? then [a[idx[0]].value] else []) + rest
  }

  /** Collecting in completion order misses no present result. */
  lemma CollectCovers<T>(a: seq<Option<T>>, order: seq<nat>)
    requires IsCompletionOrder(order, |a|)
    ensures Indexes(order, a)
    ensures forall i :: 0 <= i < |a| && a[i].Some? ==> a[i].value in Collect(a, order)
  {
    CompletionOrderIndexes(order, a);
    forall i | 0 <= i < |a| && a[i].Some?
      ensures a[i].value in Collect(a, order)
    {
      assert Range(|a|)[i] == i;
      assert i in multiset(order);
      var k :| 0 <= k < |order| && order[k] == i;
    }
  }

  lemma IndexesAppend<T>(u: seq<nat>, v: seq<nat>, a: seq<T>)
    requires Indexes(u, a) && Indexes(v, a)
    ensures Indexes(u + v, a)
  {
    forall k | 0 <= k < |u + v|
      ensures (u + v)[k] < |a|
    {
      if k >= |u| {
        assert (u + v)[k] == v[k - |u|];
      }
    }
  }

  /** How `Collect` sees its first index. */
  lemma CollectFirst<T>(a: seq<Option<T>>, idx: seq<nat>)
    requires Indexes(idx, a) && |idx| > 0
    ensures Indexes(idx[1..], a)
    ensures Collect(a, idx) == (if a[idx[0]].Some? then [a[idx[0]].value] else []) + Collect(a, idx[1..])
  {
    assert forall k :: 0 <= k < |idx[1..]| ==> idx[1..][k] == idx[k + 1];
  }

  lemma {:induction false} CollectAppend<T>(a: seq<Option<T>>, u: seq<nat>, v: seq<nat>)
    requires Indexes(u, a) && Indexes(v, a)
    ensures Indexes(u + v, a)
    ensures Collect(a, u + v) == Collect(a, u) + Collect(a, v)
    decreases |u|
  {
    IndexesAppend(u, v, a);
    if |u| == 0 {
      assert u + v == v;
    } else {
      var w := u + v;
      assert w[1..] == u[1..] + v;
      assert w[0] == u[0];
      CollectFirst(a, u);
      CollectAppend(a, u[1..], v);
      CollectFirst(a, w);
      var head := if a[u[0]].Some? then [a[u[0]].value] else [];
      AppendAssoc(head, Collect(a, u[1..]), Collect(a, v));
    }
  }

  lemma AppendAssoc<T>(x: seq<T>, y: seq<T>, z: seq<T>)
    ensures x + (y + z) == (x + y) + z
  {
  }

  /** What is collected depends on the order of the indices only through
      the order of the results. */
  lemma {:induction false} CollectPermutation<T>(a: seq<Option<T>>, x: seq<nat>, y: seq<nat>)
    requires Indexes(x, a) && Indexes(y, a)
    requires multiset(x) == multiset(y)
    ensures multiset(Collect(a, x)) == multiset(Collect(a, y))
    decreases |x|
  {
    if |x| == 0 {
      assert |y| == |multiset(y)| == 0;
    } else {
      assert x[0] in multiset(y);
      var j :| 0 <= j < |y| && y[j] == x[0];
      var y' := y[..j] + y[j + 1..];
      RemoveAt(x, y, j);
      CollectPermutation(a, x[1..], y');
      CollectAt(a, y, j);
      CollectFirst(a, x);
      CollectFirst(a, [y[j]]);
    }
  }

  /** Taking the first index of `x` out of `y` where it occurs. */
  lemma RemoveAt(x: seq<nat>, y: seq<nat>, j: nat)
    requires |x| > 0 && j < |y| && y[j] == x[0] && multiset(x) == multiset(y)
    ensures multiset(x[1..]) == multiset(y[..j] + y[j + 1..])
  {
    assert x == [x[0]] + x[1..];
    assert multiset(x) == multiset{x[0]} + multiset(x[1..]);
    assert y == y[..j] + [y[j]] + y[j + 1..];
    assert multiset(y) == multiset(y[..j]) + multiset{y[j]} + multiset(y[j + 1..]);
    assert multiset(y[..j] + y[j + 1..]) == multiset(y[..j]) + multiset(y[j + 1..]);
    forall z
      ensures multiset(x[1..])[z] == multiset(y[..j] + y[j + 1..])[z]
    {
      assert multiset(x)[z] == multiset(y)[z];
    }
  }

  /** The result of the `j`-th index taken out of what is collected. */
  lemma CollectAt<T>(a: seq<Option<T>>, y: seq<nat>, j: nat)
    requires Indexes(y, a) && j < |y|
    ensures Indexes(y[..j] + y[j + 1..], a) && Indexes([y[j]], a)
    ensures multiset(Collect(a, y)) == multiset(Collect(a, y[..j] + y[j + 1..])) + multiset(Collect(a, [y[j]]))
  {
    assert y == y[..j] + [y[j]] + y[j + 1..];
    CollectAppend(a, y[..j], [y[j]]);
    CollectAppend(a, y[..j] + [y[j]], y[j + 1..]);
    CollectAppend(a, y[..j], y[j + 1..]);
  }

  /** The number of true entries. */
  function CountTrue(bs: seq<bool>): (n: nat)
    ensures n <= |bs|
  {
    if |bs| == 0 then 0 else CountTrue(bs[..|bs| - 1]) + if bs[|bs| - 1] then 1 else 0
  }

  /** Collecting in submission order keeps one result per present one. */
  lemma {:induction false} CollectInOrderCount<T>(a: seq<Option<T>>, n: nat)
    requires n <= |a|
    ensures Indexes(Range(n), a)
    ensures |Collect(a, Range(n))| == CountTrue(seq(n, i requires 0 <= i < n => a[i].Some?))
  {
    if n > 0 {
      CollectInOrderCount(a, n - 1);
      RangeSnoc(n - 1);
      CollectAppend(a, Range(n - 1), [n - 1]);
      CollectFirst(a, [n - 1]);
      var bs := seq(n, i requires 0 <= i < n => a[i].Some?);
      assert bs[..n - 1] == seq(n - 1, i requires 0 <= i < n - 1 => a[i].Some?);
    }
  }

  lemma RangeSnoc(n: nat)
    ensures Range(n + 1) == Range(n) + [n]
  {
    assert forall i :: 0 <= i < n ==> Range(n + 1)[i] == (Range(n) + [n])[i];
  }

  // ---------------------------------------------------------------------
  // The run

  /** `process_sim_cards`' output: the records in completion order, what
      was sent to each active port, and whether each delete was confirmed
      (the value `delete_all_sms` returns, which the caller drops). */
  datatype Run = Run(records: seq<PortRecord>, traces: seq<seq<Exchange>>, deleted: seq<bool>)

  /** The ports scanned: the named one, or every detected port. */
  function ActivePorts(detected: seq<string>, port: string): (r: seq<string>)
    ensures port != "" ==> r == [port]
    ensures port == "" ==> r == detected
  {
    if port != "" then [port] else detected
  }

  /** One scan task per active port; the `i`-th task reads the clock as
      `stamps(i)`. */
  function Scans(links: string -> Link, active: seq<string>, creds: Credentials, fullScan: bool,
                 stamps: nat -> string): (r: seq<PortScan>)
    ensures |r| == |active|
    ensures forall i :: 0 <= i < |active| ==> r[i] == ScanPort(links(active[i]), active[i], stamps(i), creds, fullScan)
  {
    seq(|active|, i requires 0 <= i < |active| => ScanPort(links(active[i]), active[i], stamps(i), creds, fullScan))
  }

  function Records(scans: seq<PortScan>): (r: seq<Option<PortRecord>>)
    ensures |r| == |scans|
    ensures forall i :: 0 <= i < |scans| ==> r[i] == scans[i].record
  {
    seq(|scans|, i requires 0 <= i < |scans| => scans[i].record)
  }

  /** What follows the scans: the records collected in completion order and,
      when asked, the delete command sent to each active port after its
      scan. */
  function Dispatch(links: string -> Link, active: seq<string>, scans: seq<PortScan>,
                    deleteSms: bool, order: seq<nat>): (r: Run)
    requires |scans| == |active|
    requires IsCompletionOrder(order, |active|)
    ensures |r.traces| == |active| && |r.records| <= |active|
    ensures forall i :: 0 <= i < |active| ==>
      r.traces[i] == scans[i].sent + (if deleteSms then [DeleteCommand] else [])
    ensures deleteSms ==> |r.deleted| == |active| && forall i :: 0 <= i < |active| ==>
      r.deleted[i] == DeleteConfirmed(links(active[i])(scans[i].sent, DeleteCommand))
    ensures !deleteSms ==> r.deleted == []
    ensures forall x :: x in r.records ==> exists i :: 0 <= i < |scans| && scans[i].record == Some(x)
    ensures forall i :: 0 <= i < |scans| && scans[i].record.Some? ==> scans[i].record.value in r.records
  {
    var found := Records(scans);
    CollectCovers(found, order);
    var records := Collect(found, order);
    assert |order| == |multiset(order)| == |multiset(Range(|active|))| == |active|;
    var traces := seq(|active|, i requires 0 <= i < |active| =>
      scans[i].sent + (if deleteSms then [DeleteCommand] else []));
    var deleted := if deleteSms then
      seq(|active|, i requires 0 <= i < |active| => DeleteConfirmed(links(active[i])(scans[i].sent, DeleteCommand)))
    else [];
    Run(records, traces, deleted)
  }

  /** Whatever order the scans finish in, the records are those of the
      scans in submission order, possibly reordered. */
  lemma OrderFree(links: string -> Link, active: seq<string>, scans: seq<PortScan>,
                  deleteSms: bool, order: seq<nat>)
    requires |scans| == |active|
    requires IsCompletionOrder(order, |active|)
    ensures Indexes(Range(|scans|), Records(scans))
    ensures multiset(Dispatch(links, active, scans, deleteSms, order).records)
         == multiset(Collect(Records(scans), Range(|scans|)))
  {
    var found := Records(scans);
    CompletionOrderIndexes(order, found);
    CollectPermutation(found, order, Range(|active|));
  }

  /** One record per scan that produced one, whatever the completion order. */
  lemma RecordCount(links: string -> Link, active: seq<string>, scans: seq<PortScan>,
                    deleteSms: bool, order: seq<nat>)
    requires |scans| == |active|
    requires IsCompletionOrder(order, |active|)
    ensures |Dispatch(links, active, scans, deleteSms, order).records|
         == CountTrue(seq(|scans|, i requires 0 <= i < |scans| => scans[i].record.Some?))
  {
    var found := Records(scans);
    OrderFree(links, active, scans, deleteSms, order);
    CollectInOrderCount(found, |scans|);
    assert seq(|scans|, i requires 0 <= i < |scans| => found[i].Some?)
        == seq(|scans|, i requires 0 <= i < |scans| => scans[i].record.Some?);
    var records := Dispatch(links, active, scans, deleteSms, order).records;
    assert |records| == |multiset(records)|;
  }

  /** `process_sim_cards(port, delete_sms)`; `port == ""` stands for no
      port, `links(p)` is the modem on port `p`, and `order` is the order in
      which the scans finish. */
  function ProcessSimCards(links: string -> Link, detected: seq<string>, creds: Credentials,
                           port: string, deleteSms: bool, stamps: nat -> string, order: seq<nat>): (r: Run)
    requires IsCompletionOrder(order, |ActivePorts(detected, port)|)
    ensures var scans := Scans(links, ActivePorts(detected, port), creds, port == "", stamps);
      && |r.traces| == |scans|
      && (forall i :: 0 <= i < |scans| ==> IsPrefix(scans[i].sent, r.traces[i]))
      && (forall x :: x in r.records <==> exists i :: 0 <= i < |scans| && scans[i].record == Some(x))
  {
    var active := ActivePorts(detected, port);
    var scans := Scans(links, active, creds, port == "", stamps);
    DispatchShape(links, active, scans, deleteSms, order);
    Dispatch(links, active, scans, deleteSms, order)
  }

  /** Each port's trace starts with what its scan sent, and the records are
      exactly the scans' records. */
  lemma DispatchShape(links: string -> Link, active: seq<string>, scans: seq<PortScan>,
                      deleteSms: bool, order: seq<nat>)
    requires |scans| == |active|
    requires IsCompletionOrder(order, |active|)
    ensures var r := Dispatch(links, active, scans, deleteSms, order);
      && (forall i :: 0 <= i < |active| ==> IsPrefix(scans[i].sent, r.traces[i]))
      && (forall x :: x in r.records <==> exists i :: 0 <= i < |scans| && scans[i].record == Some(x))
  {
    var r := Dispatch(links, active, scans, deleteSms, order);
    forall i | 0 <= i < |active| ensures IsPrefix(scans[i].sent, r.traces[i]) {
      PrefixOfAppend(scans[i].sent, if deleteSms then [DeleteCommand] else []);
    }
  }

  lemma PrefixOfAppend<T>(a: seq<T>, b: seq<T>)
    ensures IsPrefix(a, a + b)
  {
    assert (a + b)[..|a|] == a;
  }

  /** A full scan yields one record per detected port whose card is usable,
      whatever the order the scans finish in. */
  lemma FullScanRecordCount(links: string -> Link, detected: seq<string>, creds: Credentials,
                            deleteSms: bool, stamps: nat -> string, order: seq<nat>)
    requires IsCompletionOrder(order, |detected|)
    ensures |ProcessSimCards(links, detected, creds, "", deleteSms, stamps, order).records|
         == CountTrue(seq(|detected|, i requires 0 <= i < |detected| =>
              CheckAndUnlock(links(detected[i]), [], creds).outcome.Usable()))
  {
    var scans := Scans(links, detected, creds, true, stamps);
    RecordCount(links, detected, scans, deleteSms, order);
    FoundAreUsable(links, detected, creds, stamps);
  }

  /** Which full scans yield a record, port by port. */
  lemma FoundAreUsable(links: string -> Link, detected: seq<string>, creds: Credentials,
                       stamps: nat -> string)
    ensures var scans := Scans(links, detected, creds, true, stamps);
      seq(|scans|, i requires 0 <= i < |scans| => scans[i].record.Some?)
      == seq(|detected|, i requires 0 <= i < |detected| =>
           CheckAndUnlock(links(detected[i]), [], creds).outcome.Usable())
  {
    var scans := Scans(links, detected, creds, true, stamps);
    var found := seq(|scans|, i requires 0 <= i < |scans| => scans[i].record.Some?);
    var usable := seq(|detected|, i requires 0 <= i < |detected| =>
      CheckAndUnlock(links(detected[i]), [], creds).outcome.Usable());
    forall i | 0 <= i < |detected|
      ensures found[i] == usable[i]
    {
      FoundIffUsable(links, detected, creds, stamps, i);
    }
  }

  /** A full scan yields a record exactly when the card is usable. */
  lemma FoundIffUsable(links: string -> Link, detected: seq<string>, creds: Credentials,
                       stamps: nat -> string, i: nat)
    requires i < |detected|
    ensures Scans(links, detected, creds, true, stamps)[i].record.Some?
        == CheckAndUnlock(links(detected[i]), [], creds).outcome.Usable()
  {
    var scans := Scans(links, detected, creds, true, stamps);
    assert scans[i] == FullScan(links(detected[i]), detected[i], stamps(i), creds);
  }

  /** Naming a port scans that port alone, for its SMS listing, and yields
      exactly its record, followed by the delete command when asked. */
  lemma TargetedRun(links: string -> Link, detected: seq<string>, creds: Credentials,
                    port: string, deleteSms: bool, stamps: nat -> string, order: seq<nat>)
    requires port != ""
    requires IsCompletionOrder(order, 1)
    ensures var r := ProcessSimCards(links, detected, creds, port, deleteSms, stamps, order);
      var listing := ListQuery;
      && r.records == [ScanPort(links(port), port, stamps(0), creds, false).record.value]
      && r.traces == [[listing] + (if deleteSms then [DeleteCommand] else [])]
  {
    var scans := Scans(links, [port], creds, false, stamps);
    assert scans[0] == FastScan(links(port), port, stamps(0));
    SingleDispatch(links, [port], scans, deleteSms, order);
  }

  /** With a single task, the run is that task's record and trace. */
  lemma SingleDispatch(links: string -> Link, active: seq<string>, scans: seq<PortScan>,
                       deleteSms: bool, order: seq<nat>)
    requires |scans| == |active| == 1 && scans[0].record.Some?
    requires IsCompletionOrder(order, 1)
    ensures var r := Dispatch(links, active, scans, deleteSms, order);
      && r.records == [scans[0].record.value]
      && r.traces == [scans[0].sent + (if deleteSms then [DeleteCommand] else [])]
  {
    SingleOrder(order);
    assert Collect(Records(scans), [0]) == [scans[0].record.value];
  }

  /** The only completion order of one task. */
  lemma SingleOrder(order: seq<nat>)
    requires IsCompletionOrder(order, 1)
    ensures order == [0]
  {
    assert |order| == |multiset(order)| == 1;
    assert order[0] in multiset(Range(1));
  }

  // ---------------------------------------------------------------------
  // The command line

  /** The `__main__` block: `--delete-sms` is honoured only together with a
      non-empty `--port`; without one every detected port is scanned fully
      and nothing is sent after the scans. */
  function Main(portArg: Option<string>, deleteFlag: bool, links: string -> Link, detected: seq<string>,
                creds: Credentials, stamps: nat -> string, order: seq<nat>): (r: Run)
    requires IsCompletionOrder(order, |ActivePorts(detected, portArg.GetOr(""))|)
    ensures portArg.GetOr("") == "" ==> r.deleted == [] && |r.traces| == |detected|
    ensures portArg.GetOr("") == "" ==> forall i :: 0 <= i < |detected| ==>
      r.traces[i] == ScanPort(links(detected[i]), detected[i], stamps(i), creds, true).sent
    ensures portArg.GetOr("") != "" ==> |r.records| == 1
    ensures portArg.GetOr("") != "" ==>
      r.traces == [[ListQuery] + (if deleteFlag then [DeleteCommand] else [])]
  {
    var port := portArg.GetOr("");
    if port != "" then
      TargetedRun(links, detected, creds, port, deleteFlag, stamps, order);
      ProcessSimCards(links, detected, creds, port, deleteFlag, stamps, order)
    else ProcessSimCards(links, detected, creds, "", false, stamps, order)
  }
}

=== FILE: scanner.dfy ===
/** `process_single_sim_card` (app/main.py): unlock the card when scanning
    fully, read the SMS storage count, send the command batch, and record
    every reply in an ordered responses dictionary from which the helper
    entries are removed at the end. */
module Scanner {
  import opened Wrappers
  import opened Text
  import opened Codec
  import opened Transport
  import opened Dicts
  import opened Decoders
  import opened Unlock

  /** A value of the JSON record. */
  datatype Value =
    | Null
    | Str(s: string)
    | Num(n: int)
    | Messages(entries: seq<SmsEntry>)
    | Count(used: int, total: int)

  /** One port's entry in the output. */
  datatype PortRecord = PortRecord(port: string, timestamp: string, responses: Dict<Value>)

  /** A command of the batch, under the description it is recorded by. */
  datatype Step = Step(desc: string, command: string)

  /** The read timeout of batch commands, 0.08 s. */
  const BatchTimeoutMs: nat := 80

  const PhonebookStep := "Set Phonebook Storage to MSISDN"

  /** The only per-description timeout, 1.7 s; all other steps use the batch
      default. */
  function TimeoutFor(desc: string): (t: nat)
    ensures t == DefaultTimeoutMs <==> desc == PhonebookStep
    ensures t != DefaultTimeoutMs ==> t == BatchTimeoutMs
  {
    if desc == PhonebookStep then 1700 else BatchTimeoutMs
  }

  function StepExchange(s: Step): Exchange {
    Exchange(s.command, TimeoutFor(s.desc))
  }

  const SmsListStep := Step("Get SMS", "AT+CMGL=\"ALL\"\r")

  /** The SMS listing as a targeted scan sends it. */
  const ListQuery := Exchange("AT+CMGL=\"ALL\"\r", BatchTimeoutMs)

  /** The full-scan batch, in the order it is sent and recorded. */
  const FullPlan: seq<Step> := [
    Step("Check SIM status", "AT+CPIN?\r"),
    Step("Get IMSI", "AT+CIMI\r"),
    Step("Set SMS text mode", "AT+CMGF=1\r"),
    SmsListStep,
    Step("Send USSD", "AT+CUSD=1,\"*99#\"\r"),
    Step(PhonebookStep, "AT+CPBS=\"ON\"\r"),
    Step("Get Operator", "AT+COPS?\r"),
    Step("Get ICCID", "AT+CRSM=176,12258,0,0,10\r")
  ]

  /** The targeted-scan batch: the SMS list only. */
  const FastPlan: seq<Step> := [SmsListStep]

  const CountQuery := Exchange("AT+CPMS=\"SM\"\r", DefaultTimeoutMs)

  /** Entries a reply may add beside its own description. */
  predicate IsExtraKey(k: string) {
    k == "ICCID" || k == "Phone Number (USSD)" || k == "MSISDN"
  }

  /** Entries removed before the record is returned. */
  predicate IsHiddenKey(k: string) {
    k == PhonebookStep || k == "Get ICCID" || k == "Send USSD"
  }

  // ---------------------------------------------------------------------
  // Recording one reply

  /** What is recorded under the step's own description: `null` for no
      reply, the hexadecimal bytes when they are not UTF-8, the parsed list
      for the SMS listing and the first line of the cleaned text otherwise. */
  function PrimaryValue(desc: string, reply: Option<Reply>): (r: Value)
    ensures r.Null? <==> !Present(reply)
    ensures r.Messages? <==> Present(reply) && reply.value.Utf8? && desc == "Get SMS"
    ensures Present(reply) && reply.value.NonUtf8? ==>
      r.Str? && |r.s| == 2 * |reply.value.raw| && forall i :: 0 <= i < |r.s| ==> IsHexDigit(r.s[i])
    ensures Present(reply) && reply.value.Utf8? && desc != "Get SMS" ==>
      r.Str? && StartsWith(CleanReply(reply.value.text), r.s) && !Contains(r.s, CrLf)
    ensures Present(reply) && reply.value.Utf8? && desc != "Get SMS" ==>
      r.Str? && (r.s == CleanReply(reply.value.text)
                 || StartsWith(CleanReply(reply.value.text)[|r.s|..], CrLf))
  {
    if !Present(reply) then Null
    else
      match reply.value
      case NonUtf8(b) => Str(ToHex(b))
      case Utf8(t) =>
        var clean := CleanReply(t);
        if desc == "Get SMS" then Messages(ParseSmsList(clean)) else Str(FirstLine(clean))
  }

  /** A one-line answer in the usual layout is recorded as that line. */
  lemma PrimaryOfOkReply(desc: string, body: string)
    requires desc != "Get SMS"
    requires |body| > 0 && '\r' !in body
    requires !IsPySpace(body[0]) && !IsPySpace(body[|body| - 1])
    ensures PrimaryValue(desc, Some(Utf8("\r\n" + body + "\r\n\r\nOK\r\n"))) == Str(body)
  {
    CleanOfOkReply(body);
    SplitOnFree(body, CrLf);
  }

  /** The one further entry a decoded reply may yield: the ICCID number, the
      USSD phone number, the operator name (replacing the first line) or the
      MSISDN. */
  function ExtraEntry(desc: string, reply: Option<Reply>): (r: Option<(string, Value)>)
    ensures r.Some? ==> Present(reply) && reply.value.Utf8?
    ensures r.Some? ==> IsExtraKey(r.value.0) || r.value.0 == desc
    ensures r.Some? && r.value.0 == "ICCID" ==> desc == "Get ICCID"
    ensures r.Some? && r.value.0 == "Phone Number (USSD)" ==> desc == "Send USSD"
    ensures r.Some? && r.value.0 == "MSISDN" ==> desc == PhonebookStep
    ensures r.Some? && r.value.0 == desc ==> desc == "Get Operator"
  {
    if !Present(reply) || reply.value.NonUtf8? then None
    else
      var clean := CleanReply(reply.value.text);
      if desc == "Get ICCID" then
        match ExtractIccid(clean)
        case Some(n) => if n != 0 then Some(("ICCID", Num(n))) else None
        case None => None
      else if desc == "Send USSD" && Contains(clean, "CUSD:") then
        match ExtractPhoneNumber(reply.value)
        case Some(number) => if |number| > 0 then Some(("Phone Number (USSD)", Str(number))) else None
        case None => None
      else if desc == "Get Operator" && Contains(clean, "+COPS:") then
        match OperatorName(clean)
        case Some(name) => Some((desc, Str(name)))
        case None => None
      else if desc == PhonebookStep && Contains(clean, "+CUSD:") then
        match Msisdn(clean)
        case Some(number) => Some(("MSISDN", Str(number)))
        case None => None
      else None
  }

  /** What one reply contributes to the record: the value under the step's
      description and the further entry, if any. */
  datatype Entry = Entry(desc: string, primary: Value, extra: Option<(string, Value)>)

  /** The further entry is one of the known keys or replaces the step's
      own value. */
  predicate Fits(e: Entry) {
    e.extra.Some? ==> IsExtraKey(e.extra.value.0) || e.extra.value.0 == e.desc
  }

  function EntryOf(desc: string, reply: Option<Reply>): (e: Entry)
    ensures e.desc == desc && Fits(e)
  {
    Entry(desc, PrimaryValue(desc, reply), ExtraEntry(desc, reply))
  }

  /** The value an entry leaves under its own description: the further
      value when it replaces the step's own (the operator name), the primary
      value otherwise. */
  function EntryValue(e: Entry): Value {
    if e.extra.Some? && e.extra.value.0 == e.desc then e.extra.value.1 else e.primary
  }

  /** The step's own entry put, then the further entry if there is one. */
  function Record(d: Dict<Value>, e: Entry): (r: Dict<Value>)
    requires Fits(e)
    ensures e.desc in Keys(r)
    ensures IsPrefix(Keys(d), Keys(r))
    ensures forall k :: k in Keys(r) ==> k in Keys(d) || k == e.desc || IsExtraKey(k)
  {
    var d1 := Put(d, e.desc, e.primary);
    PutKeys(d, e.desc, e.primary);
    if e.extra.None? then d1
    else
      var r := Put(d1, e.extra.value.0, e.extra.value.1);
      PutKeys(d1, e.extra.value.0, e.extra.value.1);
      PrefixTransitive(Keys(d), Keys(d1), Keys(r));
      r
  }

  /** Recording an entry leaves alone every key that is neither its
      description nor a further entry. */
  lemma RecordOther(d: Dict<Value>, e: Entry, k: string)
    requires Fits(e) && k != e.desc && !IsExtraKey(k)
    ensures Get(Record(d, e), k) == Get(d, k)
  {
    var d1 := Put(d, e.desc, e.primary);
    PutOther(d, e.desc, e.primary, k);
    if e.extra.Some? {
      PutOther(d1, e.extra.value.0, e.extra.value.1, k);
    }
  }

  /** Recording keeps the keys unique. */
  lemma RecordUnique(d: Dict<Value>, e: Entry)
    requires Fits(e)
    ensures UniqueKeys(d) ==> UniqueKeys(Record(d, e))
  {
    if UniqueKeys(d) {
      var d1 := Put(d, e.desc, e.primary);
      PutUnique(d, e.desc, e.primary);
      if e.extra.Some? {
        PutUnique(d1, e.extra.value.0, e.extra.value.1);
      }
    }
  }

  /** The entry a step writes under its own description. */
  lemma RecordOwnValue(d: Dict<Value>, e: Entry)
    requires Fits(e)
    ensures Get(Record(d, e), e.desc) == Some(EntryValue(e))
  {
    var d1 := Put(d, e.desc, e.primary);
    if e.extra.Some? && e.extra.value.0 != e.desc {
      PutOther(d1, e.extra.value.0, e.extra.value.1, e.desc);
    }
  }

  /** The responses after recording the reply to the step `desc`. */
  function ApplyReply(d: Dict<Value>, desc: string, reply: Option<Reply>): Dict<Value> {
    Record(d, EntryOf(desc, reply))
  }

  lemma PrefixTransitive<T>(a: seq<T>, b: seq<T>, c: seq<T>)
    requires IsPrefix(a, b) && IsPrefix(b, c)
    ensures IsPrefix(a, c)
  {
    assert c[..|a|] == c[..|b|][..|a|];
  }

  lemma PrefixMembers<T>(a: seq<T>, b: seq<T>)
    requires IsPrefix(a, b)
    ensures forall x :: x in a ==> x in b
  {
    assert forall i :: 0 <= i < |a| ==> a[i] == b[i];
  }

  /** An undecodable reply is recorded as hexadecimal text that gives the
      bytes back. */
  lemma UndecodableKeptAsHex(d: Dict<Value>, desc: string, raw: seq<byte>)
    requires |raw| > 0
    ensures var r := ApplyReply(d, desc, Some(NonUtf8(raw)));
      Get(r, desc).Some? && Get(r, desc).value.Str? && FromHex(Get(r, desc).value.s) == Some(raw)
  {
    FromHexToHex(raw);
  }

  /** A port that does not answer gets `null` under the step. */
  lemma SilenceRecordedAsNull(d: Dict<Value>, desc: string, reply: Option<Reply>)
    requires !Present(reply)
    ensures ApplyReply(d, desc, reply) == Put(d, desc, Null)
  {
  }

  // ---------------------------------------------------------------------
  // The batch

  /** The result of sending a batch: the exchanges in order and the
      responses afterwards. */
  datatype BatchRun = BatchRun(sent: seq<Exchange>, responses: Dict<Value>)

  /** The exchanges a batch sends, in order. */
  function Exchanges(steps: seq<Step>): (r: seq<Exchange>)
    ensures |r| == |steps|
    ensures forall i :: 0 <= i < |steps| ==> r[i] == StepExchange(steps[i])
  {
    seq(|steps|, i requires 0 <= i < |steps| => StepExchange(steps[i]))
  }

  /** The reply each command of the batch gets, sent after `history` and
      every earlier command of the batch. The replies do not depend on what
      is recorded, so the conversation and the recording are taken apart. */
  function Converse(link: Link, history: seq<Exchange>, steps: seq<Step>): (replies: seq<Option<Reply>>)
    ensures |replies| == |steps|
  {
    var sent := Exchanges(steps);
    seq(|steps|, i requires 0 <= i < |steps| => ReplyAt(link, history, sent, i))
  }

  /** What each reply contributes, step by step. */
  function Entries(steps: seq<Step>, replies: seq<Option<Reply>>): (r: seq<Entry>)
    requires |replies| == |steps|
    ensures |r| == |steps|
    ensures forall i :: 0 <= i < |steps| ==> r[i].desc == steps[i].desc && Fits(r[i])
  {
    seq(|steps|, i requires 0 <= i < |steps| => EntryOf(steps[i].desc, replies[i]))
  }

  predicate AllFit(entries: seq<Entry>) {
    forall i :: 0 <= i < |entries| ==> Fits(entries[i])
  }

  /** The descriptions of the entries, in order. */
  function Descs(entries: seq<Entry>): (r: seq<string>)
    ensures |r| == |entries|
    ensures forall i :: 0 <= i < |entries| ==> r[i] == entries[i].desc
  {
    if |entries| == 0 then [] else [entries[0].desc] + Descs(entries[1..])
  }

  /** The entries recorded one after the other. */
  function RecordAll(d: Dict<Value>, entries: seq<Entry>): (r: Dict<Value>)
    requires AllFit(entries)
    ensures IsPrefix(Keys(d), Keys(r))
    ensures UniqueKeys(d) ==> UniqueKeys(r)
    decreases |entries|
  {
    if |entries| == 0 then d
    else
      var d1 := Record(d, entries[0]);
      var r := RecordAll(d1, entries[1..]);
      PrefixTransitive(Keys(d), Keys(d1), Keys(r));
      RecordUnique(d, entries[0]);
      r
  }

  /** The loop over the commands, each sent after everything before it. */
  function RunBatch(link: Link, history: seq<Exchange>, steps: seq<Step>, d: Dict<Value>): (r: BatchRun)
    ensures r.sent == Exchanges(steps)
    ensures IsPrefix(Keys(d), Keys(r.responses))
    ensures UniqueKeys(d) ==> UniqueKeys(r.responses)
  {
    BatchRun(Exchanges(steps), RecordAll(d, Entries(steps, Converse(link, history, steps))))
  }

  /** After the recording every entry's description is a key, and every key
      was there before, is an entry's description or is a further entry. */
  lemma {:induction false} RecordKeys(d: Dict<Value>, entries: seq<Entry>)
    requires AllFit(entries)
    ensures forall k :: k in Descs(entries) ==> k in Keys(RecordAll(d, entries))
    ensures forall k :: k in Keys(RecordAll(d, entries)) ==>
              k in Keys(d) || IsExtraKey(k) || k in Descs(entries)
    decreases |entries|
  {
    if |entries| > 0 {
      var d1 := Record(d, entries[0]);
      RecordKeys(d1, entries[1..]);
      assert Descs(entries) == [entries[0].desc] + Descs(entries[1..]);
      PrefixMembers(Keys(d1), Keys(RecordAll(d1, entries[1..])));
    }
  }

  /** The recording leaves alone every key that is neither an entry's
      description nor a further entry. */
  lemma {:induction false} RecordFrame(d: Dict<Value>, entries: seq<Entry>, k: string)
    requires AllFit(entries)
    requires k !in Descs(entries) && !IsExtraKey(k)
    ensures Get(RecordAll(d, entries), k) == Get(d, k)
    decreases |entries|
  {
    if |entries| > 0 {
      assert Descs(entries) == [entries[0].desc] + Descs(entries[1..]);
      RecordOther(d, entries[0], k);
      RecordFrame(Record(d, entries[0]), entries[1..], k);
    }
  }

  /** No entry but the `j`-th has its description. */
  predicate Sole(entries: seq<Entry>, j: nat) {
    j < |entries| && forall i :: 0 <= i < |entries| && i != j ==> entries[i].desc != entries[j].desc
  }

  lemma SoleTail(entries: seq<Entry>, j: nat)
    requires 0 < j < |entries| && Sole(entries, j)
    ensures Sole(entries[1..], j - 1)
  {
    forall i | 0 <= i < |entries| - 1 && i != j - 1
      ensures entries[1..][i].desc != entries[1..][j - 1].desc
    {
      assert entries[1..][i] == entries[i + 1];
    }
  }

  lemma SoleFirst(entries: seq<Entry>)
    requires Sole(entries, 0)
    ensures entries[0].desc !in Descs(entries[1..])
  {
    forall i | 0 <= i < |entries| - 1
      ensures Descs(entries[1..])[i] != entries[0].desc
    {
      assert entries[1..][i] == entries[i + 1];
    }
  }

  lemma AllFitTail(entries: seq<Entry>)
    requires |entries| > 0 && AllFit(entries)
    ensures Fits(entries[0]) && AllFit(entries[1..])
  {
    assert forall i :: 0 <= i < |entries| - 1 ==> entries[1..][i] == entries[i + 1];
  }

  /** The value under the description of an entry that no other entry and
      no further entry shares is that entry's own value. */
  lemma {:induction false} RecordValue(d: Dict<Value>, entries: seq<Entry>, j: nat)
    requires AllFit(entries)
    requires Sole(entries, j)
    requires !IsExtraKey(entries[j].desc)
    ensures Get(RecordAll(d, entries), entries[j].desc) == Some(EntryValue(entries[j]))
    decreases |entries|
  {
    AllFitTail(entries);
    if j == 0 {
      SoleFirst(entries);
      RecordOwnValue(d, entries[0]);
      RecordFrame(Record(d, entries[0]), entries[1..], entries[0].desc);
    } else {
      SoleTail(entries, j);
      RecordValue(Record(d, entries[0]), entries[1..], j - 1);
      assert entries[1..][j - 1] == entries[j];
    }
  }

  /** The further value an entry leaves under the key `k`, if any. */
  function ExtraFor(e: Entry, k: string): Option<Value> {
    if e.extra.Some? && e.extra.value.0 == k then Some(e.extra.value.1) else None
  }

  /** Recording an entry sets a key other than its description exactly when
      that key is its further entry's. */
  lemma RecordExtraKey(d: Dict<Value>, e: Entry, k: string)
    requires Fits(e) && k != e.desc
    ensures Get(Record(d, e), k) == if ExtraFor(e, k).Some? then ExtraFor(e, k) else Get(d, k)
  {
    var d1 := Put(d, e.desc, e.primary);
    PutOther(d, e.desc, e.primary, k);
    if e.extra.Some? && e.extra.value.0 != k {
      PutOther(d1, e.extra.value.0, e.extra.value.1, k);
    }
  }

  /** A key that no entry has as description or further entry is left
      alone. */
  lemma {:induction false} RecordUntouched(d: Dict<Value>, entries: seq<Entry>, k: string)
    requires AllFit(entries)
    requires forall i :: 0 <= i < |entries| ==> entries[i].desc != k && ExtraFor(entries[i], k).None?
    ensures Get(RecordAll(d, entries), k) == Get(d, k)
    decreases |entries|
  {
    if |entries| > 0 {
      AllFitTail(entries);
      assert forall i :: 0 <= i < |entries| - 1 ==> entries[1..][i] == entries[i + 1];
      RecordExtraKey(d, entries[0], k);
      RecordUntouched(Record(d, entries[0]), entries[1..], k);
    }
  }

  /** A key that is no entry's description and the further key of no entry
      but the `j`-th holds that entry's further value after the recording,
      and what it held before when that entry has none. */
  lemma {:induction false} RecordExtra(d: Dict<Value>, entries: seq<Entry>, j: nat, k: string)
    requires AllFit(entries) && j < |entries|
    requires forall i :: 0 <= i < |entries| ==> entries[i].desc != k
    requires forall i :: 0 <= i < |entries| && i != j ==> ExtraFor(entries[i], k).None?
    ensures Get(RecordAll(d, entries), k)
         == if ExtraFor(entries[j], k).Some? then ExtraFor(entries[j], k) else Get(d, k)
    decreases |entries|
  {
    AllFitTail(entries);
    assert forall i :: 0 <= i < |entries| - 1 ==> entries[1..][i] == entries[i + 1];
    RecordExtraKey(d, entries[0], k);
    if j == 0 {
      RecordUntouched(Record(d, entries[0]), entries[1..], k);
    } else {
      RecordExtra(Record(d, entries[0]), entries[1..], j - 1, k);
    }
  }

  /** The helper entries removed. */
  function HideHelpers(d: Dict<Value>): (r: Dict<Value>)
    ensures forall k :: k in Keys(r) ==> k in Keys(d) && !IsHiddenKey(k)
  {
    var d1 := Delete(d, PhonebookStep);
    var d2 := Delete(d1, "Get ICCID");
    Delete(d2, "Send USSD")
  }

  /** Removing the helpers leaves every other entry alone. */
  lemma HideOther(d: Dict<Value>, k: string)
    requires !IsHiddenKey(k)
    ensures Get(HideHelpers(d), k) == Get(d, k)
  {
    var d1 := Delete(d, PhonebookStep);
    var d2 := Delete(d1, "Get ICCID");
    DeleteOther(d, PhonebookStep, k);
    DeleteOther(d1, "Get ICCID", k);
    DeleteOther(d2, "Send USSD", k);
  }

  lemma HideUnique(d: Dict<Value>)
    requires UniqueKeys(d)
    ensures UniqueKeys(HideHelpers(d))
  {
    var d1 := Delete(d, PhonebookStep);
    var d2 := Delete(d1, "Get ICCID");
    DeleteUnique(d, PhonebookStep);
    DeleteUnique(d1, "Get ICCID");
    DeleteUnique(d2, "Send USSD");
  }

  // ---------------------------------------------------------------------
  // One port

  /** The scan of one port: the record (`None` when it is skipped) and the
      commands written to the port, in order. */
  datatype PortScan = PortScan(record: Option<PortRecord>, sent: seq<Exchange>)

  /** The storage count entry, when the count reply parses. */
  function CountEntries(reply: Option<Reply>): Dict<Value> {
    match ParseCount(reply)
    case Some(c) => [("SMS Count", Count(c.used, c.total))]
    case None => []
  }

  /** `process_single_sim_card`; `timestamp` is the time the scan started. */
  function ScanPort(link: Link, port: string, timestamp: string, creds: Credentials, fullScan: bool): (r: PortScan)
    ensures r.record.Some? ==> r.record.value.port == port && r.record.value.timestamp == timestamp
    ensures !fullScan ==> r.record.Some?
    ensures r.record.Some? ==> UniqueKeys(r.record.value.responses)
    ensures r.record.Some? ==> forall k :: IsHiddenKey(k) ==> k !in Keys(r.record.value.responses)
  {
    if fullScan then FullScan(link, port, timestamp, creds) else FastScan(link, port, timestamp)
  }

  /** The scan of a port when no port is named: the SIM check and unlock,
      the storage count and the full batch, the helper entries removed. */
  function FullScan(link: Link, port: string, timestamp: string, creds: Credentials): (r: PortScan)
    ensures r.record.Some? ==> r.record.value.port == port && r.record.value.timestamp == timestamp
    ensures r.record.Some? <==> CheckAndUnlock(link, [], creds).outcome.Usable()
    ensures r.record.Some? ==> UniqueKeys(r.record.value.responses)
    ensures r.record.Some? ==> forall k :: IsHiddenKey(k) ==> k !in Keys(r.record.value.responses)
    ensures var u := CheckAndUnlock(link, [], creds);
      r.sent == if u.outcome.Usable() then u.sent + [CountQuery] + Exchanges(FullPlan) else u.sent
    ensures r.record.Some? ==>
      r.record.value.responses == FullRecord(link, CheckAndUnlock(link, [], creds).sent)
  {
    var unlock := CheckAndUnlock(link, [], creds);
    if !unlock.outcome.Usable() then PortScan(None, unlock.sent)
    else
      var afterUnlock := unlock.sent;
      var counted := CountEntries(link(afterUnlock, CountQuery));
      var batch := RunBatch(link, afterUnlock + [CountQuery], FullPlan, counted);
      HideUnique(batch.responses);
      PortScan(Some(PortRecord(port, timestamp, HideHelpers(batch.responses))),
               afterUnlock + [CountQuery] + batch.sent)
  }

  /** The scan of a named port: only the SMS listing, with no SIM check. */
  function FastScan(link: Link, port: string, timestamp: string): (r: PortScan)
    ensures r.record.Some? && r.record.value.port == port && r.record.value.timestamp == timestamp
    ensures UniqueKeys(r.record.value.responses)
    ensures forall k :: IsHiddenKey(k) ==> k !in Keys(r.record.value.responses)
    ensures r.sent == [ListQuery]
  {
    var batch := RunBatch(link, [], FastPlan, []);
    HideUnique(batch.responses);
    FastPlanExchanges();
    PortScan(Some(PortRecord(port, timestamp, HideHelpers(batch.responses))), batch.sent)
  }

  // ---------------------------------------------------------------------
  // What a scan records

  /** The batch descriptions that stay in the record. */
  const VisibleDescs: seq<string> :=
    [FullPlan[0].desc, FullPlan[1].desc, FullPlan[2].desc, FullPlan[3].desc, FullPlan[6].desc]

  /** The replies of a full scan's batch, sent after the unlock exchanges
      and the storage count query. */
  function FullEntries(link: Link, afterUnlock: seq<Exchange>): (r: seq<Entry>)
    ensures |r| == |FullPlan| && AllFit(r)
    ensures forall i :: 0 <= i < |FullPlan| ==> r[i].desc == FullPlan[i].desc
  {
    Entries(FullPlan, Converse(link, afterUnlock + [CountQuery], FullPlan))
  }

  /** The responses of a full scan whose unlock sent `afterUnlock`. */
  function FullRecord(link: Link, afterUnlock: seq<Exchange>): Dict<Value> {
    HideHelpers(RecordAll(CountEntries(link(afterUnlock, CountQuery)), FullEntries(link, afterUnlock)))
  }

  /** The batch descriptions are pairwise different. */
  lemma FullSole(link: Link, afterUnlock: seq<Exchange>, j: nat)
    requires j < |FullPlan|
    ensures Sole(FullEntries(link, afterUnlock), j)
  {
  }

  /** Entries with the full plan's descriptions, in its order. */
  predicate PlanShaped(entries: seq<Entry>) {
    && |entries| == |FullPlan| && AllFit(entries)
    && forall i :: 0 <= i < |FullPlan| ==> entries[i].desc == FullPlan[i].desc
  }

  /** Every batch description is either kept in the record or a helper. */
  lemma VisibleOrHidden(i: nat)
    requires i < |FullPlan|
    ensures FullPlan[i].desc in VisibleDescs || IsHiddenKey(FullPlan[i].desc)
  {
  }

  /** After recording plan-shaped entries and removing the helper entries,
      every batch description that is not a helper is a key. */
  lemma PlanKeysPresent(counted: Dict<Value>, entries: seq<Entry>, i: nat)
    requires PlanShaped(entries)
    requires i < |FullPlan| && !IsHiddenKey(FullPlan[i].desc)
    ensures FullPlan[i].desc in Keys(HideHelpers(RecordAll(counted, entries)))
  {
    var batch := RecordAll(counted, entries);
    RecordKeys(counted, entries);
    assert Descs(entries)[i] == FullPlan[i].desc;
    HideOther(batch, FullPlan[i].desc);
  }

  /** After recording plan-shaped entries on top of at most the storage
      count and removing the helper entries, no key is left but the
      storage count, the further entries and the visible descriptions. */
  lemma PlanKeysOnly(counted: Dict<Value>, entries: seq<Entry>)
    requires PlanShaped(entries)
    requires forall k :: k in Keys(counted) ==> k == "SMS Count"
    ensures forall k :: k in Keys(HideHelpers(RecordAll(counted, entries))) ==>
              k == "SMS Count" || IsExtraKey(k) || k in VisibleDescs
  {
    var batch := RecordAll(counted, entries);
    RecordKeys(counted, entries);
    forall k | k in Keys(HideHelpers(batch))
      ensures k == "SMS Count" || IsExtraKey(k) || k in VisibleDescs
    {
      if k in Descs(entries) {
        var i :| 0 <= i < |entries| && Descs(entries)[i] == k;
        VisibleOrHidden(i);
      }
    }
  }

  /** The storage count is neither a batch description nor a further entry. */
  lemma CountNotInPlan()
    ensures forall i :: 0 <= i < |FullPlan| ==> FullPlan[i].desc != "SMS Count"
    ensures !IsExtraKey("SMS Count") && !IsHiddenKey("SMS Count")
  {
  }

  /** Recording plan-shaped entries leaves the storage count alone. */
  lemma PlanKeepsCount(counted: Dict<Value>, entries: seq<Entry>)
    requires PlanShaped(entries)
    ensures Get(HideHelpers(RecordAll(counted, entries)), "SMS Count") == Get(counted, "SMS Count")
  {
    CountNotInPlan();
    assert "SMS Count" !in Descs(entries) by {
      forall i | 0 <= i < |entries| ensures Descs(entries)[i] != "SMS Count" {
        assert Descs(entries)[i] == FullPlan[i].desc;
      }
    }
    RecordFrame(counted, entries, "SMS Count");
    HideOther(RecordAll(counted, entries), "SMS Count");
  }

  /** A full scan records every batch description that is not a helper. */
  lemma FullScanKeyPresent(link: Link, afterUnlock: seq<Exchange>, i: nat)
    requires i < |FullPlan| && !IsHiddenKey(FullPlan[i].desc)
    ensures FullPlan[i].desc in Keys(FullRecord(link, afterUnlock))
  {
    PlanKeysPresent(CountEntries(link(afterUnlock, CountQuery)), FullEntries(link, afterUnlock), i);
  }

  /** A full scan records nothing but the visible batch descriptions, the
      storage count and the further entries. */
  lemma FullScanKeysOnly(link: Link, afterUnlock: seq<Exchange>)
    ensures forall k :: k in Keys(FullRecord(link, afterUnlock)) ==>
              k == "SMS Count" || IsExtraKey(k) || k in VisibleDescs
  {
    PlanKeysOnly(CountEntries(link(afterUnlock, CountQuery)), FullEntries(link, afterUnlock));
  }

  /** A full scan records the storage count exactly when the count reply
      parses, with the parsed numbers. */
  lemma FullScanCount(link: Link, afterUnlock: seq<Exchange>)
    ensures Get(FullRecord(link, afterUnlock), "SMS Count")
         == match ParseCount(link(afterUnlock, CountQuery))
            case Some(c) => Some(Count(c.used, c.total))
            case None => None
  {
    PlanKeepsCount(CountEntries(link(afterUnlock, CountQuery)), FullEntries(link, afterUnlock));
  }

  /** In a full scan the entry of each visible batch step is what that
      step's own reply yields: the reply to its command sent after the
      unlock exchanges, the count query and the earlier steps. */
  lemma FullScanValue(link: Link, afterUnlock: seq<Exchange>, j: nat)
    requires j < |FullPlan| && !IsHiddenKey(FullPlan[j].desc)
    ensures var reply := ReplyAt(link, afterUnlock + [CountQuery], Exchanges(FullPlan), j);
      Get(FullRecord(link, afterUnlock), FullPlan[j].desc) == Some(EntryValue(EntryOf(FullPlan[j].desc, reply)))
  {
    var counted := CountEntries(link(afterUnlock, CountQuery));
    var entries := FullEntries(link, afterUnlock);
    FullSole(link, afterUnlock, j);
    RecordValue(counted, entries, j);
    HideOther(RecordAll(counted, entries), FullPlan[j].desc);
  }

  /** The batch step whose reply may yield the further entry `k`. */
  function ExtraOwner(k: string): (j: nat)
    requires IsExtraKey(k)
    ensures j < |FullPlan| && IsHiddenKey(FullPlan[j].desc)
  {
    if k == "ICCID" then 7 else if k == "Phone Number (USSD)" then 4 else 5
  }

  /** In a full scan each further entry (ICCID, USSD phone number, MSISDN) is
      what its owning step's own reply yields, and absent when that reply
      yields none. */
  lemma FullScanExtra(link: Link, afterUnlock: seq<Exchange>, k: string)
    requires IsExtraKey(k)
    ensures var j := ExtraOwner(k);
      var reply := ReplyAt(link, afterUnlock + [CountQuery], Exchanges(FullPlan), j);
      && (ExtraEntry(FullPlan[j].desc, reply).Some? ==> ExtraEntry(FullPlan[j].desc, reply).value.0 == k)
      && Get(FullRecord(link, afterUnlock), k)
         == match ExtraEntry(FullPlan[j].desc, reply)
            case Some(e) => Some(e.1)
            case None => None
  {
    var counted := CountEntries(link(afterUnlock, CountQuery));
    var replies := Converse(link, afterUnlock + [CountQuery], FullPlan);
    var j := ExtraOwner(k);
    assert replies[j] == ReplyAt(link, afterUnlock + [CountQuery], Exchanges(FullPlan), j);
    CountEntriesOnly(link(afterUnlock, CountQuery), k);
    EntriesExtra(replies, k);
    RecordedExtra(counted, Entries(FullPlan, replies), j, k);
  }

  /** The storage count entry holds no other key. */
  lemma CountEntriesOnly(reply: Option<Reply>, k: string)
    requires k != "SMS Count"
    ensures Get(CountEntries(reply), k) == None
  {
  }

  /** A further entry carried by the `j`-th entry alone, described by none
      and absent before, holds that entry's further value once the entries
      are recorded and the helpers removed. */
  lemma RecordedExtra(counted: Dict<Value>, entries: seq<Entry>, j: nat, k: string)
    requires AllFit(entries) && j < |entries| && !IsHiddenKey(k) && Get(counted, k) == None
    requires forall i :: 0 <= i < |entries| ==> entries[i].desc != k
    requires forall i :: 0 <= i < |entries| && i != j ==> ExtraFor(entries[i], k).None?
    ensures Get(HideHelpers(RecordAll(counted, entries)), k) == ExtraFor(entries[j], k)
  {
    RecordExtra(counted, entries, j, k);
    HideOther(RecordAll(counted, entries), k);
  }

  /** Of the batch's entries, only the owning step's can carry the further
      entry `k`, and none is described by it. */
  lemma EntriesExtra(replies: seq<Option<Reply>>, k: string)
    requires IsExtraKey(k) && |replies| == |FullPlan|
    ensures var entries := Entries(FullPlan, replies);
      var r := ExtraEntry(FullPlan[ExtraOwner(k)].desc, replies[ExtraOwner(k)]);
      && (forall i :: 0 <= i < |entries| ==> entries[i].desc != k)
      && (forall i :: 0 <= i < |entries| && i != ExtraOwner(k) ==> ExtraFor(entries[i], k).None?)
      && (r.Some? ==> r.value.0 == k)
      && ExtraFor(entries[ExtraOwner(k)], k) == match r
         case Some(e) => Some(e.1)
         case None => None
  {
    var entries := Entries(FullPlan, replies);
    var j := ExtraOwner(k);
    PlanDescsNotExtra(k);
    forall i | 0 <= i < |entries| && i != j ensures ExtraFor(entries[i], k).None? {
      OnlyOwnerYields(k, i, replies[i]);
    }
    OnlyOwnerYields(k, j, replies[j]);
  }

  /** No batch description is a further entry's key. */
  lemma PlanDescsNotExtra(k: string)
    requires IsExtraKey(k)
    ensures forall i :: 0 <= i < |FullPlan| ==> FullPlan[i].desc != k
  {
  }

  /** Only the owning step's reply can yield the further entry `k`, and what
      that step yields is always under `k`. */
  lemma OnlyOwnerYields(k: string, i: nat, reply: Option<Reply>)
    requires IsExtraKey(k) && i < |FullPlan|
    ensures var r := ExtraEntry(FullPlan[i].desc, reply);
      && (i != ExtraOwner(k) ==> r.None? || r.value.0 != k)
      && (i == ExtraOwner(k) ==> r.None? || r.value.0 == k)
  {
    var desc := FullPlan[i].desc;
    if i == 0 {
      assert desc == "Check SIM status";
    } else if i == 1 {
      assert desc == "Get IMSI";
    } else if i == 2 {
      assert desc == "Set SMS text mode";
    } else if i == 3 {
      assert desc == "Get SMS";
    } else if i == 4 {
      assert desc == "Send USSD";
    } else if i == 5 {
      assert desc == PhonebookStep;
    } else if i == 6 {
      assert desc == "Get Operator";
    } else {
      assert desc == "Get ICCID";
    }
  }

  /** A targeted scan records the SMS listing and nothing else. */
  lemma FastScanRecord(link: Link, port: string, timestamp: string)
    ensures var reply := link([], ListQuery);
      FastScan(link, port, timestamp).record.value.responses == [("Get SMS", PrimaryValue("Get SMS", reply))]
  {
    var reply := link([], ListQuery);
    var e := Entry("Get SMS", PrimaryValue("Get SMS", reply), None);
    FastEntries(link);
    RecordSingle([], e);
    HideVisibleSingle("Get SMS", e.primary);
  }

  /** A targeted scan sends the SMS listing with the batch timeout. */
  lemma FastPlanExchanges()
    ensures Exchanges(FastPlan) == [ListQuery]
  {
    assert "Get SMS" != PhonebookStep;
  }

  /** The one entry of a targeted scan. */
  lemma FastEntries(link: Link)
    ensures var reply := link([], ListQuery);
      Entries(FastPlan, Converse(link, [], FastPlan)) == [Entry("Get SMS", PrimaryValue("Get SMS", reply), None)]
  {
    FastPlanExchanges();
    assert ReplyAt(link, [], Exchanges(FastPlan), 0) == link([], ListQuery);
  }

  /** One entry without a further entry, recorded on nothing, is that
      entry alone. */
  lemma RecordSingle(d: Dict<Value>, e: Entry)
    requires d == [] && e.extra.None?
    ensures RecordAll(d, [e]) == [(e.desc, e.primary)]
  {
    assert [e][1..] == [];
  }

  /** Removing the helpers from a single visible entry changes nothing. */
  lemma HideVisibleSingle(k: string, v: Value)
    requires !IsHiddenKey(k)
    ensures HideHelpers([(k, v)]) == [(k, v)]
  {
  }
}

=== FILE: text.dfy ===
/** The handful of Python string operations the AT-command engine is built
    from: `in`, `startswith`, `split`, `replace` and the `strip` family.
    Sequences are generic where the engine applies the same operation to
    both text and raw bytes. */
module Text {

  /** Python's `str.isspace()`: the characters `str.strip()` removes. */
  predicate IsPySpace(c: char) {
    || ('\t' <= c <= '\r')
    || ('\U{1C}' <= c <= ' ')
    || c == '\U{85}' || c == '\U{A0}' || c == '\U{1680}'
    || ('\U{2000}' <= c <= '\U{200A}')
    || c == '\U{2028}' || c == '\U{2029}' || c == '\U{202F}' || c == '\U{205F}'
    || c == '\U{3000}'
  }

  const CrLf: string := "\r\n"

  predicate StartsWith<T(==)>(s: seq<T>, prefix: seq<T>) {
    |prefix| <= |s| && s[..|prefix|] == prefix
  }

  /** `a` is an initial part of `b`. */
  predicate IsPrefix<T(==)>(a: seq<T>, b: seq<T>) {
    |a| <= |b| && b[..|a|] == a
  }

  /** A non-empty sequence is its first element followed by the rest. */
  lemma HeadTail<T>(s: seq<T>)
    requires |s| > 0
    ensures s == [s[0]] + s[1..]
  {
  }

  /** `pat` occurs in `s` starting at index `i`. */
  predicate OccursAt<T(==)>(s: seq<T>, pat: seq<T>, i: int) {
    0 <= i && i + |pat| <= |s| && s[i..i + |pat|] == pat
  }

  /** Python's `pat in s`. */
  predicate Contains<T(==)>(s: seq<T>, pat: seq<T>)
    decreases |s|
  {
    StartsWith(s, pat) || (|s| > 0 && Contains(s[1..], pat))
  }

  /** `Contains` agrees with the existence of an occurrence index. */
  lemma ContainsIff<T>(s: seq<T>, pat: seq<T>)
    ensures Contains(s, pat) <==> exists i :: OccursAt(s, pat, i)
  {
    if Contains(s, pat) {
      var i := ContainsWitness(s, pat);
    }
    if exists i :: OccursAt(s, pat, i) {
      var i :| OccursAt(s, pat, i);
      OccursContains(s, pat, i);
    }
  }

  /** Where the occurrence `Contains` finds starts. */
  lemma {:induction false} ContainsWitness<T>(s: seq<T>, pat: seq<T>) returns (i: nat)
    requires Contains(s, pat)
    ensures OccursAt(s, pat, i)
    decreases |s|
  {
    if StartsWith(s, pat) {
      i := 0;
    } else {
      var j := ContainsWitness(s[1..], pat);
      i := j + 1;
      assert s[i..i + |pat|] == s[1..][j..j + |pat|];
    }
  }

  /** An occurrence anywhere is found by `Contains`. */
  lemma {:induction false} OccursContains<T>(s: seq<T>, pat: seq<T>, i: int)
    requires OccursAt(s, pat, i)
    ensures Contains(s, pat)
    decreases i
  {
    if i > 0 {
      assert s[1..][i - 1..i - 1 + |pat|] == s[i..i + |pat|];
      OccursContains(s[1..], pat, i - 1);
    } else {
      assert StartsWith(s, pat);
    }
  }

  /** An occurrence inside a prefix of `s` is an occurrence in `s`. */
  lemma ContainsExtends<T>(s: seq<T>, t: seq<T>, pat: seq<T>)
    requires Contains(s, pat)
    ensures Contains(s + t, pat)
  {
    ContainsIff(s, pat);
    var i :| OccursAt(s, pat, i);
    assert (s + t)[i..i + |pat|] == s[i..i + |pat|];
    assert OccursAt(s + t, pat, i);
    ContainsIff(s + t, pat);
  }

  /** An occurrence in `t` is an occurrence in `s + t`. */
  lemma ContainsInSuffix<T>(s: seq<T>, t: seq<T>, pat: seq<T>)
    requires Contains(t, pat)
    ensures Contains(s + t, pat)
  {
    ContainsIff(t, pat);
    var i :| OccursAt(t, pat, i);
    assert (s + t)[|s| + i..|s| + i + |pat|] == t[i..i + |pat|];
    assert OccursAt(s + t, pat, |s| + i);
    ContainsIff(s + t, pat);
  }

  /** A single element is contained exactly when it is a member. */
  lemma ContainsSingle<T>(s: seq<T>, x: T)
    ensures Contains(s, [x]) <==> x in s
  {
    ContainsIff(s, [x]);
    if x in s {
      var i :| 0 <= i < |s| && s[i] == x;
      assert OccursAt(s, [x], i);
    }
    if exists i :: OccursAt(s, [x], i) {
      var i :| OccursAt(s, [x], i);
      assert s[i] == s[i..i + 1][0];
    }
  }

  /** Python's `s.split(sep)` for a non-empty separator: the pieces between
      the leftmost non-overlapping occurrences of `sep`. */
  function SplitOn<T(==)>(s: seq<T>, sep: seq<T>): (r: seq<seq<T>>)
    requires |sep| > 0
    ensures |r| >= 1
    decreases |s|
  {
    if StartsWith(s, sep) then [[]] + SplitOn(s[|sep|..], sep)
    else if |s| == 0 then [[]]
    else
      var rest := SplitOn(s[1..], sep);
      [[s[0]] + rest[0]] + rest[1..]
  }

  /** Python's `sep.join(parts)`. */
  function Join<T>(parts: seq<seq<T>>, sep: seq<T>): seq<T>
    decreases |parts|
  {
    if |parts| == 0 then []
    else if |parts| == 1 then parts[0]
    else parts[0] + sep + Join(parts[1..], sep)
  }

  /** Python's `s.replace(pat, rep)` for a non-empty `pat`. */
  function Replace<T(==)>(s: seq<T>, pat: seq<T>, rep: seq<T>): seq<T>
    requires |pat| > 0
  {
    Join(SplitOn(s, pat), rep)
  }

  /** Python's `s.split(c)` for a one-character separator. */
  function Split<T(==)>(s: seq<T>, c: T): (r: seq<seq<T>>)
    ensures |r| >= 1
  {
    SplitOn(s, [c])
  }

  /** `s` with every `c` removed. */
  function Without<T(==)>(s: seq<T>, c: T): (r: seq<T>)
    ensures c !in r
    ensures |r| <= |s|
    ensures forall x :: x in r ==> x in s
    decreases |s|
  {
    if |s| == 0 then []
    else if s[0] == c then Without(s[1..], c)
    else [s[0]] + Without(s[1..], c)
  }

  lemma JoinConsFirst<T>(x: T, parts: seq<seq<T>>, sep: seq<T>)
    requires |parts| >= 1
    ensures Join([[x] + parts[0]] + parts[1..], sep) == [x] + Join(parts, sep)
  {
    var q := [[x] + parts[0]] + parts[1..];
    assert q[1..] == parts[1..];
  }

  /** Joining behind an empty first piece puts the separator in front. */
  lemma JoinConsEmpty<T>(parts: seq<seq<T>>, sep: seq<T>)
    requires |parts| >= 1
    ensures Join([[]] + parts, sep) == sep + Join(parts, sep)
  {
    assert ([[]] + parts)[1..] == parts;
  }

  /** Splitting and re-joining with the same separator gives back the input. */
  lemma {:induction false} SplitOnJoin<T>(s: seq<T>, sep: seq<T>)
    requires |sep| > 0
    ensures Join(SplitOn(s, sep), sep) == s
    decreases |s|
  {
    if StartsWith(s, sep) {
      var t := s[|sep|..];
      SplitOnJoin(t, sep);
      JoinConsEmpty(SplitOn(t, sep), sep);
      assert s == s[..|sep|] + t;
    } else if |s| > 0 {
      SplitOnJoin(s[1..], sep);
      JoinConsFirst(s[0], SplitOn(s[1..], sep), sep);
      HeadTail(s);
    }
  }

  /** A split yields more than one piece exactly when the separator occurs. */
  lemma {:induction false} SplitOnCount<T>(s: seq<T>, sep: seq<T>)
    requires |sep| > 0
    ensures |SplitOn(s, sep)| >= 2 <==> Contains(s, sep)
    decreases |s|
  {
    if StartsWith(s, sep) {
    } else if |s| == 0 {
    } else {
      SplitOnCount(s[1..], sep);
    }
  }

  /** The first piece of a split is the prefix of `s` before the leftmost
      occurrence of `sep`, or all of `s` when there is none. */
  lemma {:induction false} SplitOnFirst<T>(s: seq<T>, sep: seq<T>)
    requires |sep| > 0
    ensures var p := SplitOn(s, sep)[0];
      && StartsWith(s, p)
      && !Contains(p, sep)
      && (p == s || StartsWith(s[|p|..], sep))
    decreases |s|
  {
    if StartsWith(s, sep) {
      assert SplitOn(s, sep)[0] == [];
    } else if |s| == 0 {
    } else {
      var rest := SplitOn(s[1..], sep);
      SplitOnFirst(s[1..], sep);
      var p := [s[0]] + rest[0];
      assert SplitOn(s, sep)[0] == p;
      assert s == [s[0]] + s[1..];
      assert s[..|p|] == [s[0]] + s[1..][..|rest[0]|];
      assert p[1..] == rest[0];
      assert s[|p|..] == s[1..][|rest[0]|..];
    }
  }

  /** Splitting a sequence in which the separator's first element does not
      occur gives the sequence back as the only piece. */
  lemma {:induction false} SplitOnFree<T>(a: seq<T>, sep: seq<T>)
    requires |sep| > 0 && sep[0] !in a
    ensures SplitOn(a, sep) == [a]
    decreases |a|
  {
    if |a| > 0 {
      assert a[0] in a;
      SplitOnFree(a[1..], sep);
      assert a == [a[0]] + a[1..];
    }
  }

  /** A separator preceded by a piece free of its first element is where the
      first split happens. */
  lemma {:induction false} SplitOnAfterFree<T>(a: seq<T>, sep: seq<T>, b: seq<T>)
    requires |sep| > 0 && sep[0] !in a
    ensures SplitOn(a + sep + b, sep) == [a] + SplitOn(b, sep)
    decreases |a|
  {
    var s := a + sep + b;
    if |a| == 0 {
      assert s == sep + b;
      assert StartsWith(s, sep);
      assert s[|sep|..] == b;
    } else {
      assert s[0] == a[0];
      assert a[0] in a;
      SplitOnAfterFree(a[1..], sep, b);
      assert s[1..] == a[1..] + sep + b;
      assert a == [a[0]] + a[1..];
    }
  }

  /** A front free of the separator's first element joins the first piece
      of what follows. */
  lemma {:induction false} SplitOnPrefixFree<T>(a: seq<T>, s: seq<T>, sep: seq<T>)
    requires |sep| > 0 && sep[0] !in a
    ensures SplitOn(a + s, sep) == [a + SplitOn(s, sep)[0]] + SplitOn(s, sep)[1..]
    decreases |a|
  {
    if |a| > 0 {
      var w := a + s;
      assert w[0] == a[0] && a[0] in a;
      assert !StartsWith(w, sep) by {
        if |sep| <= |w| {
          assert w[..|sep|][0] == w[0];
        }
      }
      assert w[1..] == a[1..] + s;
      SplitOnPrefixFree(a[1..], s, sep);
      var rest := SplitOn(w[1..], sep);
      assert SplitOn(w, sep) == [[w[0]] + rest[0]] + rest[1..];
      assert rest[0] == a[1..] + SplitOn(s, sep)[0];
      assert rest[1..] == SplitOn(s, sep)[1..];
      assert a == [a[0]] + a[1..];
      assert [w[0]] + (a[1..] + SplitOn(s, sep)[0]) == a + SplitOn(s, sep)[0];
    } else {
      var pieces := SplitOn(s, sep);
      assert a + s == s && a + pieces[0] == pieces[0];
      assert pieces == [pieces[0]] + pieces[1..];
    }
  }

  /** Joining pieces free of the separator's first element and splitting
      again gives the pieces back. */
  lemma {:induction false} SplitOnJoinInverse<T>(parts: seq<seq<T>>, sep: seq<T>)
    requires |sep| > 0 && |parts| >= 1
    requires forall i :: 0 <= i < |parts| ==> sep[0] !in parts[i]
    ensures SplitOn(Join(parts, sep), sep) == parts
    decreases |parts|
  {
    if |parts| == 1 {
      SplitOnFree(parts[0], sep);
    } else {
      SplitOnJoinInverse(parts[1..], sep);
      SplitOnAfterFree(parts[0], sep, Join(parts[1..], sep));
      assert parts == [parts[0]] + parts[1..];
    }
  }

  /** Replacing a single element by nothing removes every copy of it. */
  lemma {:induction false} ReplaceByNothing<T>(s: seq<T>, c: T)
    ensures Replace(s, [c], []) == Without(s, c)
    decreases |s|
  {
    if |s| > 0 {
      ReplaceByNothing(s[1..], c);
      var rest := SplitOn(s[1..], [c]);
      if s[0] == c {
        assert StartsWith(s, [c]);
        assert s[1..] == s[|[c]|..];
        assert ([[]] + rest)[1..] == rest;
      } else {
        JoinConsFirst(s[0], rest, []);
      }
    }
  }

  /** Replacing by nothing only removes: the result is no longer than `s`
      and keeps only elements of `s`. */
  lemma {:induction false} ReplaceByEmptyInside<T>(s: seq<T>, pat: seq<T>)
    requires |pat| > 0
    ensures |Replace(s, pat, [])| <= |s|
    ensures forall x :: x in Replace(s, pat, []) ==> x in s
    decreases |s|
  {
    if StartsWith(s, pat) {
      var t := s[|pat|..];
      ReplaceByEmptyInside(t, pat);
      JoinConsEmpty(SplitOn(t, pat), []);
      SliceInside(s, |pat|, |s|);
    } else if |s| > 0 {
      ReplaceByEmptyInside(s[1..], pat);
      JoinConsFirst(s[0], SplitOn(s[1..], pat), []);
      SliceInside(s, 1, |s|);
    }
  }

  /** How many characters at the front of `s` are in `chars`. */
  function LeadingDropped(s: string, drop: char -> bool): (n: nat)
    ensures n <= |s| && (n == |s| || !drop(s[n]))
    decreases |s|
  {
    if |s| > 0 && drop(s[0]) then 1 + LeadingDropped(s[1..], drop) else 0
  }

  /** Every character `LeadingDropped` counts is in `chars`. */
  lemma {:induction false} LeadingRun(s: string, drop: char -> bool)
    ensures forall k :: 0 <= k < LeadingDropped(s, drop) ==> drop(s[k])
    decreases |s|
  {
    if |s| > 0 && drop(s[0]) {
      LeadingRun(s[1..], drop);
      assert forall k :: 1 <= k < |s| ==> s[k] == s[1..][k - 1];
    }
  }

  /** Python's `s.lstrip(chars)`, `drop` telling which characters are in `chars`. */
  function LStrip(s: string, drop: char -> bool): (r: string)
    ensures |r| <= |s| && r == s[|s| - |r|..]
    ensures |r| == 0 || !drop(r[0])
  {
    s[LeadingDropped(s, drop)..]
  }

  /** How many characters at the back of `s` are in `chars`. */
  function TrailingDropped(s: string, drop: char -> bool): (n: nat)
    ensures n <= |s| && (n == |s| || !drop(s[|s| - 1 - n]))
    decreases |s|
  {
    if |s| > 0 && drop(s[|s| - 1]) then 1 + TrailingDropped(s[..|s| - 1], drop) else 0
  }

  /** Every character `TrailingDropped` counts is in `chars`. */
  lemma {:induction false} TrailingRun(s: string, drop: char -> bool)
    ensures forall k :: |s| - TrailingDropped(s, drop) <= k < |s| ==> drop(s[k])
    decreases |s|
  {
    if |s| > 0 && drop(s[|s| - 1]) {
      var t := s[..|s| - 1];
      TrailingRun(t, drop);
      assert forall k :: 0 <= k < |s| - 1 ==> s[k] == t[k];
    }
  }

  /** Python's `s.rstrip(chars)`. */
  function RStrip(s: string, drop: char -> bool): (r: string)
    ensures |r| <= |s| && r == s[..|r|]
    ensures |r| == 0 || !drop(r[|r| - 1])
  {
    s[..|s| - TrailingDropped(s, drop)]
  }

  /** `lstrip` of one character in `chars` followed by one that is not. */
  lemma LStripOne(s: string, drop: char -> bool)
    requires |s| >= 2 && drop(s[0]) && !drop(s[1])
    ensures LStrip(s, drop) == s[1..]
  {
    assert s[1..][0] == s[1];
    assert LeadingDropped(s[1..], drop) == 0;
  }

  /** `rstrip` stops at the last character not in `chars`. */
  lemma {:induction false} RStripKeeps(s: string, drop: char -> bool, k: int)
    requires 0 <= k < |s| && !drop(s[k])
    ensures |RStrip(s, drop)| > k
    decreases |s|
  {
    if drop(s[|s| - 1]) {
      var t := s[..|s| - 1];
      assert t[k] == s[k];
      RStripKeeps(t, drop, k);
    }
  }

  /** Python's `s.strip(chars)`: a contiguous part of `s` whose ends are not in
      `chars` and outside of which everything is in `chars`. */
  function Strip(s: string, drop: char -> bool): (r: string)
    ensures exists i {:trigger s[i..]} :: 0 <= i <= |s| - |r| && r == s[i..i + |r|]
    ensures |r| == 0 || (!drop(r[0]) && !drop(r[|r| - 1]))
  {
    var l := LStrip(s, drop);
    var r := RStrip(l, drop);
    var i := |s| - |l|;
    assert r == s[i..][..|r|] == s[i..i + |r|];
    assert |r| > 0 ==> r[0] == l[0];
    r
  }

  /** What `strip` removes: exactly the run of characters in `chars` at each
      end, so the result is the part of `s` between those runs. */
  lemma StripExact(s: string, drop: char -> bool) returns (i: nat)
    ensures var r := Strip(s, drop);
      && i + |r| <= |s| && r == s[i..i + |r|]
      && (forall k :: 0 <= k < i ==> drop(s[k]))
      && (forall k :: i + |r| <= k < |s| ==> drop(s[k]))
      && (|r| == 0 || (!drop(r[0]) && !drop(r[|r| - 1])))
  {
    var l := LStrip(s, drop);
    var r := RStrip(l, drop);
    i := |s| - |l|;
    LeadingRun(s, drop);
    TrailingRun(l, drop);
    assert r == s[i..][..|r|];
    assert forall k :: i + |r| <= k < |s| ==> s[k] == l[k - i];
  }

  /** Stripping keeps only characters that were there. */
  lemma StripInside(s: string, drop: char -> bool)
    ensures forall c :: c in Strip(s, drop) ==> c in s
  {
    var r := Strip(s, drop);
    var i :| 0 <= i <= |s| - |r| && r == s[i..i + |r|];
    SliceInside(s, i, i + |r|);
  }

  lemma SliceInside<T>(s: seq<T>, i: int, j: int)
    requires 0 <= i <= j <= |s|
    ensures forall x :: x in s[i..j] ==> x in s
  {
    forall x | x in s[i..j] ensures x in s {
      var k :| 0 <= k < j - i && s[i..j][k] == x;
      assert s[i + k] == x;
    }
  }

  /** Stripping removes exactly the runs of characters in `chars` around a
      non-empty middle part whose ends are not in `chars`. */
  lemma StripBetween(pre: string, mid: string, post: string, drop: char -> bool)
    requires |mid| > 0 && !drop(mid[0]) && !drop(mid[|mid| - 1])
    requires forall k :: 0 <= k < |pre| ==> drop(pre[k])
    requires forall k :: 0 <= k < |post| ==> drop(post[k])
    ensures Strip(pre + mid + post, drop) == mid
  {
    var s := pre + mid + post;
    var r := Strip(s, drop);
    var i := StripExact(s, drop);
    assert s[|pre|] == mid[0];
    assert s[|pre| + |mid| - 1] == mid[|mid| - 1];
    assert forall k :: 0 <= k < |pre| ==> s[k] == pre[k];
    assert forall k :: |pre| + |mid| <= k < |s| ==> s[k] == post[k - |pre| - |mid|];
    assert |r| > 0;
    assert r[0] == s[i] && r[|r| - 1] == s[i + |r| - 1];
    assert i == |pre|;
    assert i + |r| == |pre| + |mid|;
    assert r == s[|pre|..|pre| + |mid|] == mid;
  }

  /** `rstrip` removes a tail of characters in `chars` behind a part whose
      last character is not in `chars`. */
  lemma RStripAfter(a: string, t: string, drop: char -> bool)
    requires |a| > 0 && !drop(a[|a| - 1])
    requires forall k :: 0 <= k < |t| ==> drop(t[k])
    ensures RStrip(a + t, drop) == a
  {
    var s := a + t;
    var r := RStrip(s, drop);
    assert s[|a| - 1] == a[|a| - 1];
    RStripKeeps(s, drop, |a| - 1);
    assert forall k :: |a| <= k < |s| ==> s[k] == t[k - |a|];
    assert |r| == 0 || r[|r| - 1] == s[|r| - 1];
    assert r == s[..|a|] == a;
  }

  /** Stripping does nothing to a sequence whose ends are not in `chars`. */
  lemma StripNothing(s: string, drop: char -> bool)
    requires |s| == 0 || (!drop(s[0]) && !drop(s[|s| - 1]))
    ensures Strip(s, drop) == s
  {
  }
}

=== FILE: transport.dfy ===
/** The serial link, seen from the engine: one command written, whatever
    bytes arrived before the timeout read back. The link itself (opening the
    port, writing, reading) is not modelled; a `Link` says which reply a
    command gets given everything sent on that port before it, so a modem
    whose answers depend on earlier commands (a PIN entered, a USSD session
    opened) is covered. */
module Transport {
  import opened Wrappers
  import opened Text
  import opened Codec

  /** The bytes of one read: text when they are valid UTF-8, the raw bytes
      otherwise. */
  datatype Reply = Utf8(text: string) | NonUtf8(raw: seq<byte>)

  /** One command written to a port and the read timeout used for it. */
  datatype Exchange = Exchange(command: string, timeoutMs: nat)

  /** The reply to `e` on a port on which `history` was sent before;
      `None` when the port could not be opened or written. */
  type Link = (seq<Exchange>, Exchange) -> Option<Reply>

  /** The default timeout of the transport call, 1.7 s. */
  const DefaultTimeoutMs: nat := 1700

  /** The reply to the `i`-th command of `sent`, sent after `history`. */
  function ReplyAt(link: Link, history: seq<Exchange>, sent: seq<Exchange>, i: nat): Option<Reply>
    requires i < |sent|
  {
    link(history + sent[..i], sent[i])
  }

  /** Python truthiness of the reply: it exists and holds at least one byte. */
  predicate Present(r: Option<Reply>) {
    match r
    case None => false
    case Some(Utf8(t)) => |t| > 0
    case Some(NonUtf8(b)) => |b| > 0
  }

  /** `bytes.decode('utf-8')`: the text, or `None` for `UnicodeDecodeError`. */
  function Strict(r: Reply): Option<string> {
    match r
    case Utf8(t) => Some(t)
    case NonUtf8(_) => None
  }

  /** The ASCII bytes of `b`, as characters. */
  function AsciiPart(b: seq<byte>): (s: string)
    ensures |s| <= |b|
    ensures forall i :: 0 <= i < |s| ==> s[i] as int < 0x80
  {
    if |b| == 0 then []
    else if b[0] < 0x80 then [b[0] as char] + AsciiPart(b[1..])
    else AsciiPart(b[1..])
  }

  /** `bytes.decode('utf-8', errors='ignore')`. */
  function Lossy(r: Reply): string {
    match r
    case Utf8(t) => t
    case NonUtf8(b) => AsciiPart(b)
  }

  /** `b'OK' in response`. */
  predicate ContainsOk(r: Reply) {
    match r
    case Utf8(t) => Contains(t, "OK")
    case NonUtf8(b) => Contains(b, [0x4F, 0x4B])
  }

  /** `response and b'OK' in response`: the test every acknowledgement is
      judged by. */
  predicate Acknowledged(r: Option<Reply>) {
    Present(r) && ContainsOk(r.value)
  }
}

=== FILE: unlock.dfy ===
/** `check_and_unlock_sim` (app/main.py): ask the SIM for its PIN status;
    when it wants a PIN, read its ICCID, look the PIN up by ICCID, enter it
    and switch the PIN lock off. The port may be scanned only when the card
    was ready already or both the PIN and the lock change were acknowledged. */
module Unlock {
  import opened Wrappers
  import opened Text
  import opened Numbers
  import opened Transport
  import opened Decoders

  const StatusQuery := Exchange("AT+CPIN?\r", DefaultTimeoutMs)

  /** READ BINARY of EF_ICCID (file 12258 = 0x2FE2), ten bytes. */
  const IccidQuery := Exchange("AT+CRSM=176,12258,0,0,10\r", DefaultTimeoutMs)

  function PinEntry(pin: string): Exchange {
    Exchange("AT+CPIN=\"" + pin + "\"\r", DefaultTimeoutMs)
  }

  /** Facility "SC" (the SIM PIN lock), mode 0 (unlock). */
  function LockDisable(pin: string): Exchange {
    Exchange("AT+CLCK=\"SC\",0,\"" + pin + "\"\r", DefaultTimeoutMs)
  }

  /** The PIN store: the PIN of each card, keyed by the number
      `extract_iccid` derives from its ICCID. */
  type Credentials = map<int, string>

  /** Where the unlock flow ended; only the first two let the scan go on. */
  datatype Outcome =
    | Ready            // the card wanted no PIN
    | Unlocked         // PIN accepted and PIN lock switched off
    | NoStatus         // no reply to the status query
    | UnexpectedStatus // neither a PIN request nor READY
    | NoIccidReply     // no reply to the ICCID read
    | IccidUnreadable  // no (or a zero) ICCID in the reply
    | UnknownCard      // no PIN stored for this ICCID
    | PinRejected      // the PIN entry was not acknowledged
    | LockKept         // the PIN was accepted, disabling the lock was not
  {
    predicate Usable() {
      this == Ready || this == Unlocked
    }
  }

  /** The outcome together with the commands written to the port, in order. */
  datatype UnlockRun = UnlockRun(outcome: Outcome, sent: seq<Exchange>)

  /** The status reply as the flow reads it: lossily decoded and stripped. */
  function StatusText(r: Reply): string {
    Strip(Lossy(r), IsPySpace)
  }

  /** The reply to the status query exists and mentions `marker`. */
  predicate StatusSays(link: Link, history: seq<Exchange>, marker: string) {
    var status := link(history, StatusQuery);
    Present(status) && Contains(StatusText(status.value), marker)
  }

  /** The ICCID number read from the card once the status query was sent;
      `None` without a reply or without digits in it. */
  function CardIccid(link: Link, history: seq<Exchange>): Option<int> {
    match link(history + [StatusQuery], IccidQuery)
    case None => None
    case Some(r) => ExtractIccid(StatusText(r))
  }

  /** `check_and_unlock_sim` on a port on which `history` was sent before. A
      PIN request is recognised before READY, as in the source. */
  function CheckAndUnlock(link: Link, history: seq<Exchange>, creds: Credentials): (r: UnlockRun)
    ensures 1 <= |r.sent| <= 4 && r.sent[0] == StatusQuery
    ensures r.outcome == NoStatus <==> !Present(link(history, StatusQuery))
    ensures r.outcome == Ready <==>
              && StatusSays(link, history, "+CPIN: READY")
              && !StatusSays(link, history, "+CPIN: SIM PIN")
    ensures r.outcome.Usable() ==> r.outcome == Ready || |r.sent| == 4
  {
    var status := link(history, StatusQuery);
    if !Present(status) then UnlockRun(NoStatus, [StatusQuery])
    else
      var text := StatusText(status.value);
      if Contains(text, "+CPIN: SIM PIN") then
        var rest := IccidStage(link, history + [StatusQuery], creds);
        UnlockRun(rest.outcome, [StatusQuery] + rest.sent)
      else if Contains(text, "+CPIN: READY") then UnlockRun(Ready, [StatusQuery])
      else UnlockRun(UnexpectedStatus, [StatusQuery])
  }

  /** The ICCID is read exactly when the card asks for its PIN. */
  lemma ReadsIccidOnPinRequest(link: Link, history: seq<Exchange>, creds: Credentials)
    ensures var r := CheckAndUnlock(link, history, creds);
      && (|r.sent| >= 2 <==> StatusSays(link, history, "+CPIN: SIM PIN"))
      && (|r.sent| >= 2 ==> r.sent[1] == IccidQuery)
  {
  }

  /** A PIN is sent only when it is the one stored for the ICCID just read
      from the card, and then always. */
  lemma SendsOnlyStoredPin(link: Link, history: seq<Exchange>, creds: Credentials)
    ensures var r := CheckAndUnlock(link, history, creds);
      && (|r.sent| >= 3 <==>
            && StatusSays(link, history, "+CPIN: SIM PIN")
            && CardIccid(link, history).Some?
            && CardIccid(link, history).value != 0
            && CardIccid(link, history).value in creds)
      && (|r.sent| >= 3 ==>
            && CardIccid(link, history).Some?
            && CardIccid(link, history).value in creds
            && var pin := creds[CardIccid(link, history).value];
            && r.sent[2] == PinEntry(pin)
            && (|r.sent| == 4 ==> r.sent[3] == LockDisable(pin)))
  {
    IccidStageSteps(link, history + [StatusQuery], creds);
  }

  /** The lock is touched only after the PIN was acknowledged, and the card
      counts as unlocked only when the lock change was acknowledged too. */
  lemma LockAfterAcknowledgedPin(link: Link, history: seq<Exchange>, creds: Credentials)
    ensures var r := CheckAndUnlock(link, history, creds);
      && (|r.sent| == 4 <==> |r.sent| >= 3 && Acknowledged(ReplyAt(link, history, r.sent, 2)))
      && (r.outcome == Unlocked <==> |r.sent| == 4 && Acknowledged(ReplyAt(link, history, r.sent, 3)))
  {
    var r := CheckAndUnlock(link, history, creds);
    ReadsIccidOnPinRequest(link, history, creds);
    if StatusSays(link, history, "+CPIN: SIM PIN") {
      var afterStatus := history + [StatusQuery];
      var rest := IccidStage(link, afterStatus, creds);
      PinRequestedRun(link, history, creds);
      IccidStageSteps(link, afterStatus, creds);
      if |rest.sent| >= 2 {
        var iccid := ExtractIccid(StatusText(link(afterStatus, IccidQuery).value)).value;
        var p := PinStage(link, afterStatus + [IccidQuery], creds[iccid]);
        assert r.sent == [StatusQuery] + rest.sent;
        assert rest.sent == [IccidQuery] + p.sent by {
          HeadTail(rest.sent);
        }
        ConsTwo(StatusQuery, IccidQuery, p.sent);
        PinStageReplies(link, history, StatusQuery, IccidQuery, creds[iccid]);
      }
    }
  }

  lemma ConsTwo<T>(a: T, b: T, s: seq<T>)
    ensures [a] + ([b] + s) == [a, b] + s
  {
  }

  /** The replies the PIN stage reads, as replies to the third and fourth
      commands of the run. */
  lemma PinStageReplies(link: Link, history: seq<Exchange>, a: Exchange, b: Exchange, pin: string)
    ensures var p := PinStage(link, history + [a] + [b], pin);
      var sent := [a, b] + p.sent;
      && (|p.sent| == 2 <==> Acknowledged(ReplyAt(link, history, sent, 2)))
      && (p.outcome == Unlocked <==> |p.sent| == 2 && Acknowledged(ReplyAt(link, history, sent, 3)))
  {
    var p := PinStage(link, history + [a] + [b], pin);
    var sent := [a, b] + p.sent;
    assert history + sent[..2] == history + [a] + [b];
    if |p.sent| == 2 {
      assert history + sent[..3] == history + [a] + [b] + [PinEntry(pin)];
    }
  }

  /** The flow once the card asked for its PIN: the ICCID read, the PIN
      lookup and what follows. */
  function IccidStage(link: Link, afterStatus: seq<Exchange>, creds: Credentials): (r: UnlockRun)
    ensures 1 <= |r.sent| <= 3 && r.sent[0] == IccidQuery
    ensures !r.outcome.Ready? && !r.outcome.NoStatus?
    ensures r.outcome.Unlocked? ==> |r.sent| == 3
  {
    var iccidReply := link(afterStatus, IccidQuery);
    if !Present(iccidReply) then UnlockRun(NoIccidReply, [IccidQuery])
    else
      match ExtractIccid(StatusText(iccidReply.value))
      case None => UnlockRun(IccidUnreadable, [IccidQuery])
      case Some(iccid) =>
        if iccid == 0 then UnlockRun(IccidUnreadable, [IccidQuery])
        else if iccid !in creds then UnlockRun(UnknownCard, [IccidQuery])
        else
          var rest := PinStage(link, afterStatus + [IccidQuery], creds[iccid]);
          UnlockRun(rest.outcome, [IccidQuery] + rest.sent)
  }

  /** The PIN stage follows the ICCID read exactly when the card's ICCID
      has a PIN stored under it, and then uses that PIN. */
  lemma IccidStageSteps(link: Link, afterStatus: seq<Exchange>, creds: Credentials)
    ensures var r := IccidStage(link, afterStatus, creds);
      |r.sent| >= 2 <==>
        match link(afterStatus, IccidQuery)
        case None => false
        case Some(reply) =>
          var iccid := ExtractIccid(StatusText(reply));
          iccid.Some? && iccid.value != 0 && iccid.value in creds
    ensures var r := IccidStage(link, afterStatus, creds);
      |r.sent| >= 2 ==>
        && link(afterStatus, IccidQuery).Some?
        && var iccid := ExtractIccid(StatusText(link(afterStatus, IccidQuery).value));
        && iccid.Some? && iccid.value in creds
        && r.sent[1..] == PinStage(link, afterStatus + [IccidQuery], creds[iccid.value]).sent
        && r.outcome == PinStage(link, afterStatus + [IccidQuery], creds[iccid.value]).outcome
  {
    var iccidReply := link(afterStatus, IccidQuery);
    if iccidReply.Some? && !Present(iccidReply) {
      assert StatusText(iccidReply.value) == [];
    }
  }

  /** The flow once the PIN is known: enter it, then switch the lock off. */
  function PinStage(link: Link, afterIccid: seq<Exchange>, pin: string): (r: UnlockRun)
    ensures 1 <= |r.sent| <= 2 && r.sent[0] == PinEntry(pin)
    ensures r.outcome.PinRejected? || r.outcome.Unlocked? || r.outcome.LockKept?
    ensures |r.sent| == 2 <==> Acknowledged(link(afterIccid, PinEntry(pin)))
    ensures |r.sent| == 2 ==> r.sent[1] == LockDisable(pin)
    ensures r.outcome == Unlocked <==>
              |r.sent| == 2 && Acknowledged(link(afterIccid + [PinEntry(pin)], LockDisable(pin)))
  {
    if !Acknowledged(link(afterIccid, PinEntry(pin))) then UnlockRun(PinRejected, [PinEntry(pin)])
    else
      var lockReply := link(afterIccid + [PinEntry(pin)], LockDisable(pin));
      UnlockRun(if Acknowledged(lockReply) then Unlocked else LockKept, [PinEntry(pin), LockDisable(pin)])
  }

  // ---------------------------------------------------------------------
  // A SIM card behind a modem, answering as the 3GPP TS 27.007 commands do

  const CrsmHeader := "+CRSM: 144"
  const CrsmSw2 := "0"

  /** A card with ICCID `iccid` and PIN `pin` that asks for its PIN until the
      right one has been entered on the port. */
  function SimCard(iccid: string, pin: string): Link {
    (h: seq<Exchange>, e: Exchange) =>
      if e == StatusQuery then
        Some(Utf8(if PinEntry(pin) in h then "+CPIN: READY" else "+CPIN: SIM PIN"))
      else if e == IccidQuery then
        Some(Utf8(CrsmReply(iccid)))
      else if e == PinEntry(pin) || (e == LockDisable(pin) && PinEntry(pin) in h) then
        Some(Utf8("OK"))
      else
        Some(Utf8("ERROR"))
  }

  /** The key a card with this ICCID is stored under. */
  function IccidKey(iccid: string): (k: nat)
    requires |iccid| == 20 && AllDigits(iccid)
    ensures k < Pow10(10)
  {
    DigitsValueBound(iccid[8..18]);
    DigitsValue(iccid[8..18])
  }

  lemma CommandsDiffer(pin: string)
    ensures StatusQuery != IccidQuery
    ensures PinEntry(pin) != StatusQuery && PinEntry(pin) != IccidQuery
    ensures LockDisable(pin) != StatusQuery && LockDisable(pin) != IccidQuery
    ensures LockDisable(pin) != PinEntry(pin)
  {
    assert StatusQuery.command[3] == 'C' && StatusQuery.command[4] == 'P' && StatusQuery.command[7] == '?';
    assert IccidQuery.command[4] == 'R';
    assert PinEntry(pin).command[4] == 'P' && PinEntry(pin).command[7] == '=';
    assert LockDisable(pin).command[4] == 'L';
  }

  lemma PinNotLock(a: string, b: string)
    ensures PinEntry(a) != LockDisable(b)
  {
    assert PinEntry(a).command[4] == 'P' && LockDisable(b).command[4] == 'L';
  }

  lemma PinEntryInjective(a: string, b: string)
    requires PinEntry(a) == PinEntry(b)
    ensures a == b
  {
    var ca, cb := PinEntry(a).command, PinEntry(b).command;
    assert |a| == |ca| - 11 == |b|;
    assert a == ca[9..9 + |a|];
    assert b == cb[9..9 + |b|];
  }

  lemma StatusTextOf(t: string)
    requires |t| > 0 && !IsPySpace(t[0]) && !IsPySpace(t[|t| - 1])
    ensures StatusText(Utf8(t)) == t
  {
    StripNothing(t, IsPySpace);
  }

  lemma ContainsWhole(s: string)
    ensures Contains(s, s)
  {
    assert OccursAt(s, s, 0);
    ContainsIff(s, s);
  }

  lemma NotContainsLonger(s: string, pat: string)
    requires |pat| > |s|
    ensures !Contains(s, pat)
  {
    ContainsIff(s, pat);
  }

  /** The card's answer to the ICCID read: status words 144 and 0, then the
      ICCID digits nibble-swapped and quoted. */
  function CrsmReply(iccid: string): string {
    CrsmHeader + "," + CrsmSw2 + "," + ("\"" + SwapPairs(iccid) + "\"")
  }

  /** The card reads back the ICCID key it is stored under. */
  lemma CardReadsIccid(iccid: string, pin: string, h: seq<Exchange>)
    requires |iccid| == 20 && AllDigits(iccid)
    ensures CardIccid(SimCard(iccid, pin), h) == Some(IccidKey(iccid))
  {
    CommandsDiffer(pin);
    assert SimCard(iccid, pin)(h + [StatusQuery], IccidQuery) == Some(Utf8(CrsmReply(iccid)));
    CrsmReplyIccid(iccid);
  }

  lemma CrsmReplyIccid(iccid: string)
    requires |iccid| == 20 && AllDigits(iccid)
    ensures ExtractIccid(StatusText(Utf8(CrsmReply(iccid)))) == Some(IccidKey(iccid))
  {
    CrsmReplyStripped(iccid);
    CrsmFieldsFree();
    IccidOfSimRead(CrsmHeader, CrsmSw2, iccid, "\"");
  }

  /** The card's ICCID reply has no whitespace at its ends. */
  lemma CrsmReplyStripped(iccid: string)
    ensures StatusText(Utf8(CrsmReply(iccid))) == CrsmReply(iccid)
  {
    var t := CrsmReply(iccid);
    var body := "\"" + SwapPairs(iccid) + "\"";
    var head := CrsmHeader + "," + CrsmSw2 + ",";
    assert t == head + body;
    assert t[0] == head[0] == '+';
    assert t[|t| - 1] == body[|body| - 1] == '"';
    StatusTextOf(t);
  }

  lemma CrsmFieldsFree()
    ensures ',' !in CrsmHeader && ',' !in CrsmSw2 && ',' !in "\""
  {
  }

  /** The whole flow when the card asks for its PIN, the ICCID read back
      has a PIN stored, and that PIN is acknowledged or not. */
  lemma RunWithStoredPin(link: Link, history: seq<Exchange>, creds: Credentials)
    requires StatusSays(link, history, "+CPIN: SIM PIN")
    requires CardIccid(link, history).Some? && CardIccid(link, history).value != 0
    requires CardIccid(link, history).value in creds
    ensures var pin := creds[CardIccid(link, history).value];
      var afterIccid := history + [StatusQuery] + [IccidQuery];
      var r := CheckAndUnlock(link, history, creds);
      && (!Acknowledged(link(afterIccid, PinEntry(pin))) ==>
            r == UnlockRun(PinRejected, [StatusQuery, IccidQuery, PinEntry(pin)]))
      && (Acknowledged(link(afterIccid, PinEntry(pin)))
          && Acknowledged(link(afterIccid + [PinEntry(pin)], LockDisable(pin))) ==>
            r == UnlockRun(Unlocked, [StatusQuery, IccidQuery, PinEntry(pin), LockDisable(pin)]))
  {
    var pin := creds[CardIccid(link, history).value];
    var afterStatus := history + [StatusQuery];
    var rest := PinStage(link, afterStatus + [IccidQuery], pin);
    IccidStageSteps(link, afterStatus, creds);
    assert IccidStage(link, afterStatus, creds) == UnlockRun(rest.outcome, [IccidQuery] + rest.sent);
    PinRequestedRun(link, history, creds);
    Cons(StatusQuery, [IccidQuery] + rest.sent);
  }

  /** On a PIN request the run is the status query followed by the ICCID
      stage. */
  lemma PinRequestedRun(link: Link, history: seq<Exchange>, creds: Credentials)
    requires StatusSays(link, history, "+CPIN: SIM PIN")
    ensures var rest := IccidStage(link, history + [StatusQuery], creds);
      CheckAndUnlock(link, history, creds) == UnlockRun(rest.outcome, [StatusQuery] + rest.sent)
  {
  }

  lemma Cons<T>(x: T, s: seq<T>)
    ensures |s| == 2 ==> [x] + s == [x, s[0], s[1]]
    ensures |s| == 3 ==> [x] + s == [x, s[0], s[1], s[2]]
  {
  }

  /** A locked card whose PIN is stored under its ICCID is unlocked, with the
      four commands of the flow. */
  lemma UnlocksStoredCard(iccid: string, pin: string, creds: Credentials)
    requires |iccid| == 20 && AllDigits(iccid)
    requires IccidKey(iccid) != 0 && IccidKey(iccid) in creds && creds[IccidKey(iccid)] == pin
    ensures var r := CheckAndUnlock(SimCard(iccid, pin), [], creds);
      r.outcome == Unlocked && r.sent == [StatusQuery, IccidQuery, PinEntry(pin), LockDisable(pin)]
  {
    var card := SimCard(iccid, pin);
    CardAsksForPin(iccid, pin);
    CardReadsIccid(iccid, pin, []);
    var afterIccid := [] + [StatusQuery] + [IccidQuery];
    CommandsDiffer(pin);
    assert card(afterIccid, PinEntry(pin)) == Some(Utf8("OK"));
    assert PinEntry(pin) in afterIccid + [PinEntry(pin)];
    assert card(afterIccid + [PinEntry(pin)], LockDisable(pin)) == Some(Utf8("OK"));
    OkIsAcknowledgement();
    RunWithStoredPin(card, [], creds);
  }

  /** A card whose stored PIN is wrong is left alone after the rejected PIN:
      the lock command is never sent. */
  lemma StopsAtWrongPin(iccid: string, pin: string, creds: Credentials)
    requires |iccid| == 20 && AllDigits(iccid)
    requires IccidKey(iccid) != 0 && IccidKey(iccid) in creds && creds[IccidKey(iccid)] != pin
    ensures var r := CheckAndUnlock(SimCard(iccid, pin), [], creds);
      r.outcome == PinRejected && r.sent == [StatusQuery, IccidQuery, PinEntry(creds[IccidKey(iccid)])]
  {
    var card := SimCard(iccid, pin);
    CardAsksForPin(iccid, pin);
    CardReadsIccid(iccid, pin, []);
    CardRejectsOtherPin(iccid, pin, creds[IccidKey(iccid)], [] + [StatusQuery] + [IccidQuery]);
    ErrorIsNoAcknowledgement();
    RunWithStoredPin(card, [], creds);
  }

  /** Any other PIN gets `ERROR`. */
  lemma CardRejectsOtherPin(iccid: string, pin: string, other: string, h: seq<Exchange>)
    requires other != pin
    ensures SimCard(iccid, pin)(h, PinEntry(other)) == Some(Utf8("ERROR"))
  {
    CommandsDiffer(other);
    if PinEntry(other) == PinEntry(pin) {
      PinEntryInjective(other, pin);
    }
    PinNotLock(other, pin);
  }

  /** Before any PIN was entered the card asks for one. */
  lemma CardAsksForPin(iccid: string, pin: string)
    ensures StatusSays(SimCard(iccid, pin), [], "+CPIN: SIM PIN")
  {
    assert SimCard(iccid, pin)([], StatusQuery) == Some(Utf8("+CPIN: SIM PIN"));
    StatusTextOf("+CPIN: SIM PIN");
    ContainsWhole("+CPIN: SIM PIN");
  }

  lemma OkIsAcknowledgement()
    ensures Acknowledged(Some(Utf8("OK")))
  {
    ContainsWhole("OK");
  }

  lemma ErrorIsNoAcknowledgement()
    ensures !Acknowledged(Some(Utf8("ERROR")))
  {
    var s := "ERROR";
    assert forall i :: 0 <= i < |s| ==> s[i] != 'K';
    NoPairWithout(s, 'O', 'K');
    assert "OK" == ['O', 'K'];
  }

  /** A sequence without `b` does not contain `a` followed by `b`. */
  lemma {:induction false} NoPairWithout<T>(s: seq<T>, a: T, b: T)
    requires forall i :: 0 <= i < |s| ==> s[i] != b
    ensures !Contains(s, [a, b])
    decreases |s|
  {
    if |s| > 0 {
      if |s| >= 2 {
        assert s[..2][1] == s[1];
      }
      NoPairWithout(s[1..], a, b);
    }
  }

  /** Without a PIN request the status query is the only command, and the
      card is usable exactly when its status says READY. */
  lemma StatusOnlyWithoutPinRequest(link: Link, history: seq<Exchange>, creds: Credentials)
    requires !StatusSays(link, history, "+CPIN: SIM PIN")
    ensures var r := CheckAndUnlock(link, history, creds);
      && r.sent == [StatusQuery]
      && (r.outcome.Usable() <==> StatusSays(link, history, "+CPIN: READY"))
  {
    ReadsIccidOnPinRequest(link, history, creds);
  }

  /** A card that is already ready is scanned without sending a PIN. */
  lemma ReadyCardNeedsNoPin(link: Link, history: seq<Exchange>, creds: Credentials)
    requires link(history, StatusQuery) == Some(Utf8("+CPIN: READY"))
    ensures CheckAndUnlock(link, history, creds) == UnlockRun(Ready, [StatusQuery])
  {
    StatusTextOf("+CPIN: READY");
    ContainsWhole("+CPIN: READY");
    NotContainsLonger("+CPIN: READY", "+CPIN: SIM PIN");
  }
}

=== FILE: wrappers.dfy ===
/** Optional values: the model's stand-in for Python's `None`. */
module Wrappers {

  datatype Option<+T> = None | Some(value: T) {

    /** The wrapped value, or `default` when there is none. */
    function GetOr(default: T): T {
      match this
      case Some(v) => v
      case None => default
    }
  }
}
